=== FILE: README.md ===
# Template inheritance engine — a Dafny model

This project models `TemplateInheritance`, a runtime template-inheritance
engine. A base template and the templates it includes write a page while its
output is captured. The templates mark named regions of that output with
`startblock(name)` and `endblock(name?)`.

While the capture runs, the engine does these things:

- it keeps the stack of open blocks;
- it records where each block starts and ends in the captured text;
- it attaches each closed block as a slot ("anchor") of its parent;
- it registers the slot under the block's name.

A top-level block from another file (a child template) does not get a slot of
its own. Instead it fills the slot already registered under its name: the
slot keeps its place and only its content changes. When the capture ends,
the engine walks the block tree and splices the page back together:

- the last part is right-trimmed;
- the output after the last registered block follows;
- then the warnings deferred from other files.

Every anomaly is a warning and never an error: a mismatched name, an orphan
endblock, a missing endblock, or a second block of one name from one file.

The modules follow the engine's structure:

| module | what it holds |
|---|---|
| `Traces` | call-site traces and the predicates that place a marker: same file, sub-trace, base or child |
| `Text` | the library functions the engine relies on: `substr`, `rtrim`, `implode`, `%d` |
| `Warnings` | the four warnings and their text in the command-line and browser formats |
| `Blocks` | the block record and the anchor; the arenas they live in |
| `Sessions` | the invariant of a running session and the steps that keep it |
| `Registering` | what closing a block does to the slots and the registry (`insertBlock`) |
| `Assembly` | the parts a block contributes to the page, and the round trip they complete |
| `Engine` | the engine class: markers, forced closes, flushing, the capture callback, `compile` |

Blocks and anchors are PHP objects that the engine shares by reference. Here
they are values in two arenas (`blocks`, `anchors`) owned by the engine, and
each is named by its index. The PHP reference shared by a parent's
`children` and the registry is one anchor index held by both. An override
therefore changes one anchor, and the parent sees the change. The base
block is `blocks[0]`. An empty arena means that no session runs.

The output buffer is explicit. `buf` is the capture of the running session,
and its length is what `ob_get_length()` returns. `out` is what goes past the
capture: output made before a session began, and each page a finished session
delivers. The call-site trace of each marker is a parameter. A ghost log
`warnings` records every warning raised, whether it is reported or not.

The model follows the code as written. Points worth noting:

- `flushblocks` warns about the open blocks and drops them without
  registering them (TemplateInheritance.php:48-54). By contrast, `newBlock`
  (TemplateInheritance.php:86-97) and the capture callback
  (TemplateInheritance.php:141-147) register every block they force-close
  before they warn about it.
- Traces list the innermost call site first. `isSameFile` compares the file
  of the innermost frame and requires every outer frame to be identical.
- `inBaseOrChild` compares only the file of the marker's innermost frame
  with the base trace's frame at that depth.
- `endblock` raises a name-mismatch warning before it registers the block.
  The block's end therefore lies after the echoed warning text.
- A forced close warns after it registers the block, so in the base file
  each later forced close happens after the echoed text of the one before.

## Model

| member | source | states |
|---|---|---|
| Traces.IsSameFile | TemplateInheritance.php:237-243 | two traces in the same file are equally deep: they share every outer frame |
| Traces.IsSubtrace | TemplateInheritance.php:245-259 | the frame-by-frame comparison from the outermost end answers true exactly when `t1` is the outermost `\|t1\|` frames of `t2` (reference definition `IsSuffix`) |
| Traces.InBaseOrChild | TemplateInheritance.php:228-235 | a marker in the base template's own file always keeps the session |
| Traces.SameFileSymmetric | TemplateInheritance.php:237-243 | same-file holds in one direction exactly when it holds in the other |
| Traces.SameFileTransitive | TemplateInheritance.php:237-243 | same-file is transitive, so the open blocks of one nest agree on it |
| Traces.InBaseOrChildMeans | TemplateInheritance.php:228-235 | a marker keeps the session exactly when its trace is non-empty and no deeper than the base trace, and equals the base trace cut to its depth except for the line of its innermost frame |
| Traces.SessionSharesOutermostFile | TemplateInheritance.php:228-235 | a marker that keeps the session starts from the base's outermost template file |
| Text.SubstrSpec | TemplateInheritance.php:175-184 | `substr` gives the text at the offset: "" past the end, at most `length` characters for a non-negative length, and that many fewer at the end for a negative one |
| Text.SubstrFromSpec | TemplateInheritance.php:160 | `substr` without a length gives everything from the offset on; joined with the text before the offset it is the whole buffer |
| Text.RTrimSpec | TemplateInheritance.php:157 | `rtrim` gives a prefix that does not end in a blank, and everything it strips is blank |
| Text.TrimLastOnlyTrims | TemplateInheritance.php:155-157 | trimming the last part leaves a prefix of the joined parts and removes only blanks, all of them from the last part: blanks ending an earlier part stay |
| Assembly.ChildPartsSegment | TemplateInheritance.php:174-181 | on a well-nested tree the parts up to slot `k` join to the text from the block's start to the cursor after slot `k`, which stays inside the block |
| Assembly.PartsRoundTrip | TemplateInheritance.php:170-187 | on a well-nested tree (slots in order, non-overlapping, inside the block, each holding its own block) the parts of a block join to exactly the text between its start and end |
| Assembly.CompileLeaf | TemplateInheritance.php:182-185 | a block without slots contributes its own text as one part, or no part when it is empty |
| Sessions.NestPrefix | TemplateInheritance.php:141-148 | popping open blocks off the stack keeps the stack well nested |
| Sessions.SessionPop | TemplateInheritance.php:30-31 | popping the innermost open block keeps the session invariant; the popped block is not the base, is younger than the block it is attached to, and shares the nest's file |
| Sessions.SessionSameShape | TemplateInheritance.php:99-101 | setting where blocks end keeps the session invariant |
| Sessions.AttachKeepsSession | TemplateInheritance.php:110-123 | appending a new slot to an older block and registering it keeps the session invariant |
| Sessions.OverrideKeepsSession | TemplateInheritance.php:131-134 | with no block open, pointing a slot from another file at the closed block keeps the slot graph acyclic and the invariant intact |
| Sessions.PushKeepsSession | TemplateInheritance.php:23 | opening a fresh block without slots, from the innermost open block's file, keeps the invariant |
| Sessions.NestTopSameFile | TemplateInheritance.php:86-98 | if one open block is from the marker's file then so is the innermost, so a forced close takes all open blocks or none |
| Sessions.MissingForSnoc | TemplateInheritance.php:48-54 | the missing-endblock warnings for the open blocks come innermost first, one per block |
| Sessions.MissingForExtends | TemplateInheritance.php:141-147 | closing blocks does not change the warnings owed for the open blocks |
| Registering.AttachSlot | TemplateInheritance.php:110-123 | a new slot over the block's own range is appended last among its parent's slots and registered under the block's name; nothing else changes |
| Registering.OverrideSlot | TemplateInheritance.php:124-134 | an override points the registered slot at the block and keeps every block, every slot range and the registry |
| Registering.Register | TemplateInheritance.php:106-136 | closing a block at offset `at` sets its end to `at`, keeps every other block's identity and end, and keeps the session invariant for the remaining open blocks |
| Registering.RegisterSlots | TemplateInheritance.php:110-135 | for each of the four cases into which `Kind` splits a close (attach when nested or from the base file; otherwise unregistered, duplicate or override by the registered slot's file): which slot is added or repointed, what the registry holds, which children lists change; an attached or overriding block is what its name's slot then holds |
| Engine.ClosesMissings | TemplateInheritance.php:141-147 | force-closing all the open blocks raises exactly one missing-endblock warning per block, innermost first, whatever duplicate warnings registering them raised |
| Engine.PageOfWellNested | TemplateInheritance.php:149-164 | on a tree where no block was overridden, the page is the text the base covers, less some trailing blanks (those its last part ends in), then the output after the last registered block, then the deferred warnings |
| Engine.InBase | TemplateInheritance.php:223-226 | a marker in the base template's file keeps the session |
| Engine.Compile | TemplateInheritance.php:170-187 | the loop over the slots, with a recursive call per slot, yields exactly the parts of the block (`Parts`, whose round trip `PartsRoundTrip` proves) |
| Engine.TemplateInheritance.constructor | TemplateInheritance.php:11-17 | an engine starts with no session, nothing captured and no warning |
| Engine.TemplateInheritance.WarningText | TemplateInheritance.php:191-207 | a warning writes text exactly when user warnings are reported |
| Engine.TemplateInheritance.Emit | TemplateInheritance.php:80 | template output goes into the capture while a session runs, and past it otherwise; the session is unchanged |
| Engine.TemplateInheritance.Warn | TemplateInheritance.php:189-209 | every warning is logged; its text goes out at once when no session runs or the marker is in the base file, and is deferred to the end of the page otherwise; nothing is written when warnings are not reported |
| Engine.TemplateInheritance.InsertBlock | TemplateInheritance.php:106-136 | the arenas become `Register` of the old ones, the last resolved offset is `at`, and the only warning is a duplicate, echoed or deferred |
| Engine.TemplateInheritance.CloseTop | TemplateInheritance.php:90-96 | the innermost open block is popped and registered at `at` as `Register` says; the log gains its duplicate warning, if any, then its missing-endblock warning, and their text is echoed or deferred |
| Engine.TemplateInheritance.Offsets | TemplateInheritance.php:86-97 | there is one forced close per open block, the first at the current offset and none before it, and all at that offset when warning text does not go into the capture |
| Engine.TemplateInheritance.ForceClose | TemplateInheritance.php:86-97 | popping and registering the open blocks one by one, innermost first, each at its offset, leaves a session with no open block and as many blocks as before |
| Engine.TemplateInheritance.ForceCloseFrame | TemplateInheritance.php:86-97 | forced closes keep every block's identity and the end of every block that was not open; the last offset resolved is the one the outermost block closed at |
| Engine.TemplateInheritance.ForceCloseEnds | TemplateInheritance.php:141-147 | every force-closed block ends at the offset of its own close |
| Engine.TemplateInheritance.CloseForeign | TemplateInheritance.php:86-98 | when the innermost open block is from another file than the marker, all open blocks are closed and registered as `ForceClose` says, each with its warnings; otherwise none is; afterwards the innermost open block, if any, is from the marker's file |
| Engine.TemplateInheritance.CloseForeignRun | TemplateInheritance.php:86-98 | with the innermost open block from another file, every open block is closed and registered, innermost first, each later close past the text the one before echoed; the log gains the warnings `ClosesWarnings` lists |
| Engine.TemplateInheritance.EndBase | TemplateInheritance.php:99-101 | the base ends at the current offset exactly when it had not ended and the marker is outside the base file; no other block changes |
| Engine.TemplateInheritance.NewBlock | TemplateInheritance.php:84-104 | the arenas are those the forced closes (`ForeignCloses`) leave, with the base ended at the current offset when the marker is outside its file; the log gains the closes' warnings; the new block starts at the current offset, is open and has no slots |
| Engine.TemplateInheritance.DropStep | TemplateInheritance.php:48-54 | each dropped block adds its missing-endblock warning to the log and its text to the capture or to the deferred text |
| Engine.TemplateInheritance.DropOpen | TemplateInheritance.php:48-54 | the open blocks are dropped unregistered, with one missing-endblock warning each, innermost first, echoed or deferred; the arenas are unchanged |
| Engine.TemplateInheritance.FlushPage | TemplateInheritance.php:45-57 | a flush from outside the base file delivers the page of the capture followed by the missing-endblock warnings for the open blocks |
| Engine.TemplateInheritance.EndCapture | TemplateInheritance.php:55-59 | ending the capture of a session with no open block delivers its page and ends the session |
| Engine.TemplateInheritance.Flushblocks | TemplateInheritance.php:45-61 | with no session nothing changes; otherwise the page of the capture, with one missing-endblock warning per open block, goes out and the session ends |
| Engine.TemplateInheritance.CloseAll | TemplateInheritance.php:141-148 | every open block is closed and registered at the end of the capture, innermost first, as `ForceClose` says; the log gains each block's warnings; with no open block nothing changes |
| Engine.TemplateInheritance.Assemble | TemplateInheritance.php:154-164 | the page is the base's parts with the last one trimmed, the output after the last registered block when one was registered, then the deferred warnings |
| Engine.TemplateInheritance.EndBaseAtCapture | TemplateInheritance.php:149-153 | a base still open ends at the end of the capture, and then no last offset is kept; nothing else changes |
| Engine.TemplateInheritance.CloseCapture | TemplateInheritance.php:140-164 | in a running session every open block is registered at the end of the buffer as `ForceClose` says, the base ends there if it had not ended, the log gains the closes' warnings, and the page is the one `Page` describes |
| Engine.TemplateInheritance.BufferCallback | TemplateInheritance.php:138-168 | with no session the page is empty and nothing changes; otherwise it does what `CloseCapture` states from a trace outside the base file: the capture is untouched and the text of the missing-endblock warnings is deferred, so it ends the page |
| Engine.TemplateInheritance.Begin | TemplateInheritance.php:73-81 | a fresh session has the base block at offset 0 from the marker's trace, no open block, no slot, an empty registry, no last offset and nothing captured or deferred |
| Engine.TemplateInheritance.Init | TemplateInheritance.php:68-82 | afterwards a session runs; a marker that keeps the session changes nothing; otherwise the old session, if any, is flushed (its page goes out, its open blocks are warned about) and a fresh one begins at the marker |
| Engine.TemplateInheritance.Blockbase | TemplateInheritance.php:63-66 | the `blockbase()` marker keeps or begins a session exactly as every marker does |
| Engine.TemplateInheritance.Push | TemplateInheritance.php:23 | the block is added to the arena and opened innermost, keeping the invariant; nothing else changes |
| Engine.TemplateInheritance.Open | TemplateInheritance.php:19-24 | the forced closes (`ForeignCloses`) happen with their warnings, the base ends if the marker is outside its file, and a new block from the marker, starting at the current offset, is opened innermost above the open blocks from its file or above none (`OpenedBlock`) |
| Engine.TemplateInheritance.Startblock | TemplateInheritance.php:19-24 | in a running session the marker does what `Open` states; otherwise the old session, if any, is flushed and a fresh session holds the base and the new open block, both starting at offset 0 |
| Engine.TemplateInheritance.CheckName | TemplateInheritance.php:32-34 | a mismatch warning is raised exactly when a name is given and it is not the closed block's name; its text is echoed or deferred; the session and the past output are unchanged |
| Engine.TemplateInheritance.Close | TemplateInheritance.php:30-36 | the innermost open block is popped and registered as `Register` says at the offset the capture reached after any mismatch text, whatever the given name; the log gains the mismatch and the duplicate warning, if any, and their text is echoed or deferred (`EndedBlock`) |
| Engine.TemplateInheritance.Unopened | TemplateInheritance.php:39-42 | with no open block only an orphan warning, quoting the given name or nothing, is logged and its text echoed or deferred; the session is unchanged |
| Engine.TemplateInheritance.Endblock | TemplateInheritance.php:26-43 | with an open block it does what `Close` states, even when the name differs; with none only the orphan warning is logged; a marker outside the session first flushes it and begins a fresh one, where the orphan warning goes |

## Left out

- Block and anchor objects, and their sharing by reference, are modelled by
  two arenas and indices into them. A session's arenas are dropped when it
  ends, so nothing is shared across sessions.
- PHP output buffering (`ob_start`, `ob_get_level`, `ob_end_flush` and the
  `level` drain loop) is replaced by the `buf` and `out` fields. Output
  buffers the templates open themselves inside a session are not modelled.
  The end of the script, where PHP flushes the capture by itself, is a call
  to `BufferCallback` that the host makes.
- The capture callback runs from PHP's output layer, and the trace of its
  warnings begins with the frame of the closure registered at
  TemplateInheritance.php:80, which has no file. That trace is never in the
  base file. The model gives the callback the empty trace, which never is
  either, and every warning it raises is deferred to the end of the page.
- `strlen`, `ob_get_length` and `substr` count bytes; the model counts
  characters. Every offset comes from the same count, so the page is the
  same. Where `substr` gets a negative length, the characters it cuts
  from a multibyte text may differ from the bytes PHP cuts.
- `callingTrace` (`debug_backtrace`) is not modelled: each marker takes its
  trace as a parameter. A frame holds only a file and a line. PHP compares
  whole frame arrays (function, class, arguments), and frames without a file
  are not modelled.
- `error_reporting()` and `defined('STDIN')` are the constructor's
  `reporting` and `cli` constants.
- The name check in `endblock` uses PHP's loose `!=`, under which numeric
  strings such as "1" and "01" are equal. The model uses string inequality.
  An absent name, "" and "0" count as no name, as in PHP.
- ViewSupport.php (string and date helpers, printing) is not part of this
  model. Neither is index.php (bootstrap file I/O).
- Engine.TemplateInheritance.WarningText: its contract states only when
  text is written; the text itself is `Format` of the message at the
  warning trace's first frame, or the marker's when there is none.
- Engine.TemplateInheritance.FlushPage: its contract places the warnings
  only when they are deferred; when they are echoed they join the captured
  text before the page is assembled, as its definition says.
- Engine.TemplateInheritance.Flushblocks: does not state the capture, the
  deferred text or the arenas once the session has ended; nothing reads them
  before the next session resets them.
- Registering.Register: states the session invariant and the ends only; the
  slots and the registry are stated by `RegisterSlots`.

=== FILE: Assembly.dfy ===
/** Reassembly of the captured output from the block tree: the parts a
    block contributes, and the round trip they complete on a well-nested
    tree. */
module Assembly {
  import opened Text
  import opened Blocks

  /** Where the text after the first `k` slots of block `b` resumes: the
      block's start, then the end of each slot in turn. */
  function Cursor(blocks: seq<Block>, anchors: seq<Anchor>, b: nat, k: nat): nat
    requires Ranked(blocks, anchors) && b < |blocks| && k <= |blocks[b].children|
  {
    if k == 0 then blocks[b].start else anchors[blocks[b].children[k - 1]].end
  }

  /** An unset end takes part in arithmetic as 0. */
  function EndOr0(end: Option<nat>): nat
  {
    if end.Some? then end.value else 0
  }

  /** The parts block `b` contributes: for each slot, the text between the
      cursor and the slot's start followed by the parts of the block that
      fills the slot; then the text up to the block's end, left out when the
      cursor is already there. */
  ghost function Parts(blocks: seq<Block>, anchors: seq<Anchor>, b: nat, buffer: string): seq<string>
    requires Ranked(blocks, anchors) && b < |blocks|
    decreases |blocks| - b, 1
  {
    var n := |blocks[b].children|;
    var prev := Cursor(blocks, anchors, b, n);
    ChildParts(blocks, anchors, b, buffer, n) +
    (if Some(prev) != blocks[b].end then [Substr(buffer, prev, EndOr0(blocks[b].end) - prev)] else [])
  }

  /** The parts for the first `k` slots of block `b`. */
  ghost function ChildParts(blocks: seq<Block>, anchors: seq<Anchor>, b: nat, buffer: string, k: nat): seq<string>
    requires Ranked(blocks, anchors) && b < |blocks| && k <= |blocks[b].children|
    decreases |blocks| - b, 0, k
  {
    if k == 0 then []
    else
      var a := anchors[blocks[b].children[k - 1]];
      var prev := Cursor(blocks, anchors, b, k - 1);
      ChildParts(blocks, anchors, b, buffer, k - 1) + [Substr(buffer, prev, a.start - prev)] +
      Parts(blocks, anchors, a.block, buffer)
  }

  /** One slot more: its gap and the parts of the block filling it, after
      which the cursor is at the slot's end. */
  lemma ChildPartsNext(blocks: seq<Block>, anchors: seq<Anchor>, b: nat, buffer: string, k: nat)
    requires Ranked(blocks, anchors) && b < |blocks| && k < |blocks[b].children|
    ensures var a := anchors[blocks[b].children[k]];
      var prev := Cursor(blocks, anchors, b, k);
      && ChildParts(blocks, anchors, b, buffer, k + 1) ==
         ChildParts(blocks, anchors, b, buffer, k) + [Substr(buffer, prev, a.start - prev)] + Parts(blocks, anchors, a.block, buffer)
      && Cursor(blocks, anchors, b, k + 1) == a.end
  {
  }

  /** Slot `k` of block `b` lies after the cursor and inside the block, and
      the block filling it is the one that first occupied it. */
  ghost predicate SlotFits(blocks: seq<Block>, anchors: seq<Anchor>, b: nat, k: nat)
    requires Ranked(blocks, anchors) && b < |blocks| && k < |blocks[b].children|
  {
    var a := anchors[blocks[b].children[k]];
    blocks[b].end.Some? &&
    Cursor(blocks, anchors, b, k) <= a.start && a.end <= blocks[b].end.value &&
    blocks[a.block].start == a.start && blocks[a.block].end == Some(a.end)
  }

  /** Block `b` is closed inside the buffer, its slots are in order, do not
      overlap and hold their own blocks, and the same holds below them: the
      tree a session builds when no block is overridden. */
  ghost predicate WellNested(blocks: seq<Block>, anchors: seq<Anchor>, b: nat, buffer: string)
    requires Ranked(blocks, anchors) && b < |blocks|
    decreases |blocks| - b
  {
    blocks[b].end.Some? && blocks[b].start <= blocks[b].end.value <= |buffer| &&
    (forall k :: 0 <= k < |blocks[b].children| ==> SlotFits(blocks, anchors, b, k)) &&
    (forall k :: 0 <= k < |blocks[b].children| ==>
      WellNested(blocks, anchors, anchors[blocks[b].children[k]].block, buffer))
  }

  lemma ConcatOne(s: string)
    ensures Concat([s]) == s
  {
    assert [s][..0] == [];
  }

  /** On a well-nested tree the parts of a block join up to exactly the
      text the block covers. */
  lemma {:induction false} PartsRoundTrip(blocks: seq<Block>, anchors: seq<Anchor>, b: nat, buffer: string)
    requires Ranked(blocks, anchors) && b < |blocks|
    requires WellNested(blocks, anchors, b, buffer)
    ensures Concat(Parts(blocks, anchors, b, buffer)) == buffer[blocks[b].start..blocks[b].end.value]
    decreases |blocks| - b, 1
  {
    var n := |blocks[b].children|;
    var prev := Cursor(blocks, anchors, b, n);
    var e := blocks[b].end.value;
    ChildPartsSegment(blocks, anchors, b, buffer, n);
    var cp := ChildParts(blocks, anchors, b, buffer, n);
    if Some(prev) != blocks[b].end {
      JoinTail(cp, buffer, blocks[b].start, prev, e);
    } else {
      assert cp + [] == cp;
    }
  }

  /** Joining the parts up to the cursor and the rest of the block gives the
      whole block. */
  lemma JoinTail(before: seq<string>, buffer: string, s: nat, prev: nat, end: nat)
    requires s <= prev <= end <= |buffer| && Concat(before) == buffer[s..prev]
    ensures Concat(before + [Substr(buffer, prev, end - prev)]) == buffer[s..end]
  {
    var tail := Substr(buffer, prev, end - prev);
    ConcatAppend(before, [tail]);
    ConcatOne(tail);
    SliceJoin(buffer, s, prev, end);
  }

  /** The parts of the first `k` slots join up to the text from the block's
      start to the cursor after slot `k`. */
  lemma {:induction false} ChildPartsSegment(blocks: seq<Block>, anchors: seq<Anchor>, b: nat, buffer: string, k: nat)
    requires Ranked(blocks, anchors) && b < |blocks| && k <= |blocks[b].children|
    requires WellNested(blocks, anchors, b, buffer)
    ensures blocks[b].start <= Cursor(blocks, anchors, b, k) <= blocks[b].end.value
    ensures Concat(ChildParts(blocks, anchors, b, buffer, k)) == buffer[blocks[b].start..Cursor(blocks, anchors, b, k)]
    decreases |blocks| - b, 0, k
  {
    if k > 0 {
      ChildPartsSegment(blocks, anchors, b, buffer, k - 1);
      var a := anchors[blocks[b].children[k - 1]];
      var prev := Cursor(blocks, anchors, b, k - 1);
      assert SlotFits(blocks, anchors, b, k - 1);
      assert WellNested(blocks, anchors, a.block, buffer);
      PartsRoundTrip(blocks, anchors, a.block, buffer);
      JoinSlot(ChildParts(blocks, anchors, b, buffer, k - 1), Parts(blocks, anchors, a.block, buffer),
        buffer, blocks[b].start, prev, a.start, a.end);
    }
  }

  /** Joining the parts before a slot, the gap up to the slot and the
      slot's parts gives the text up to the slot's end. */
  lemma JoinSlot(before: seq<string>, inner: seq<string>, buffer: string, s: nat, prev: nat, start: nat, end: nat)
    requires s <= prev <= start <= end <= |buffer|
    requires Concat(before) == buffer[s..prev] && Concat(inner) == buffer[start..end]
    ensures Concat(before + [Substr(buffer, prev, start - prev)] + inner) == buffer[s..end]
  {
    var left := before + [Substr(buffer, prev, start - prev)];
    JoinTail(before, buffer, s, prev, start);
    ConcatAppend(left, inner);
    SliceJoin(buffer, s, start, end);
  }

  lemma SliceJoin(buffer: string, i: nat, j: nat, k: nat)
    requires i <= j <= k <= |buffer|
    ensures buffer[i..j] + buffer[j..k] == buffer[i..k]
  {
  }

  /** A block without slots contributes the text it covers as one part, or
      nothing when it is empty. */
  lemma CompileLeaf(blocks: seq<Block>, anchors: seq<Anchor>, b: nat, buffer: string)
    requires Ranked(blocks, anchors) && b < |blocks| && blocks[b].children == []
    requires blocks[b].end.Some? && blocks[b].start <= blocks[b].end.value <= |buffer|
    ensures Parts(blocks, anchors, b, buffer) ==
      if blocks[b].start == blocks[b].end.value then [] else [buffer[blocks[b].start..blocks[b].end.value]]
  {
  }
}

=== FILE: Blocks.dfy ===
/** The block record and the anchor that places a closed block inside its
    parent, and the shape of the block graph an engine session builds.

    Blocks and anchors live in two arenas owned by the engine and are named
    by their index there: an anchor index held both in a parent's `children`
    and in the name registry is one anchor, so filling it through the
    registry is seen through the parent. */
module Blocks {
  import opened Traces

  datatype Option<T> = None | Some(value: T)

  /** A named region of the captured output. `start` and `end` are offsets
      into the capture; `end` stays unset while the block is open.
      `children` are indices into the anchor arena. */
  datatype Block = Block(name: string, trace: Trace, start: nat, end: Option<nat>, children: seq<nat>)

  /** A slot in a parent block: the range the slot's first block occupied,
      and the index of the block whose output fills the slot now. */
  datatype Anchor = Anchor(start: nat, end: nat, block: nat)

  /** Every index points into its arena, and every slot holds a block
      created after the block that owns the slot: the graph has no cycles,
      so walking it terminates. */
  ghost predicate Ranked(blocks: seq<Block>, anchors: seq<Anchor>)
  {
    (forall a :: 0 <= a < |anchors| ==> anchors[a].block < |blocks|) &&
    (forall b, i :: 0 <= b < |blocks| && 0 <= i < |blocks[b].children| ==>
      blocks[b].children[i] < |anchors| && b < anchors[blocks[b].children[i]].block)
  }

  /** `next` keeps the blocks of `prev` under the same identity: same name,
      trace and start, and possibly more blocks after them. */
  ghost predicate Extends(prev: seq<Block>, next: seq<Block>)
  {
    |prev| <= |next| &&
    forall c :: 0 <= c < |prev| ==>
      next[c].name == prev[c].name && next[c].trace == prev[c].trace && next[c].start == prev[c].start
  }

  lemma ExtendsTrans(a: seq<Block>, b: seq<Block>, c: seq<Block>)
    requires Extends(a, b) && Extends(b, c)
    ensures Extends(a, c)
  {
  }

  /** Setting where a block ends keeps every block's identity. */
  lemma ExtendsSetEnd(blocks: seq<Block>, i: nat, e: Option<nat>)
    requires i < |blocks|
    ensures Extends(blocks, blocks[i := blocks[i].(end := e)])
  {
  }
}

=== FILE: Engine.dfy ===
/** The template-inheritance engine: a stack of open blocks over one capture
    of the page's output, a registry of closed blocks by name, and the
    reassembly of the capture once it ends. */
module Engine {
  import opened Traces
  import opened Text
  import opened Warnings
  import opened Blocks
  import opened Assembly
  import opened Sessions
  import opened Registering

  function InsertWarnings(name: string, k: Registration): seq<Warning>
  {
    if k == Duplicated then [Duplicate(name)] else []
  }

  /** Closing a block adds exactly one missing-endblock warning, whatever
      registering it raised. */
  lemma MissingsClose(ws: seq<Warning>, name: string, k: Registration)
    ensures Missings(ws + InsertWarnings(name, k) + [Missing(name)]) == Missings(ws) + [Missing(name)]
  {
    var x := ws + InsertWarnings(name, k);
    assert (x + [Missing(name)])[..|x|] == x;
    if k == Duplicated {
      assert x[..|ws|] == ws;
    } else {
      assert x == ws;
    }
  }

  /** The warnings closing block `b` raises when registering it went as
      `k`: a duplicate if it met a block of its name from its own file,
      then its missing endblock. */
  function CloseWarnings(blocks: seq<Block>, b: nat, k: Registration): seq<Warning>
    requires b < |blocks|
  {
    InsertWarnings(blocks[b].name, k) + [Missing(blocks[b].name)]
  }

  /** The warnings force-closing the innermost `|kinds|` of the open blocks
      `st` raises, innermost first, registering them as `kinds` says. */
  function ClosesWarnings(blocks: seq<Block>, st: seq<nat>, kinds: seq<Registration>): seq<Warning>
    requires |kinds| <= |st| && forall i :: 0 <= i < |st| ==> st[i] < |blocks|
    decreases |kinds|
  {
    if kinds == [] then []
    else CloseWarnings(blocks, st[|st| - 1], kinds[0]) + ClosesWarnings(blocks, st[..|st| - 1], kinds[1..])
  }

  /** Force-closing all the open blocks raises one missing-endblock warning
      per block, innermost first, however registering them went. */
  lemma {:induction false} ClosesMissings(blocks: seq<Block>, st: seq<nat>, kinds: seq<Registration>)
    requires |kinds| == |st| && forall i :: 0 <= i < |st| ==> st[i] < |blocks|
    ensures Missings(ClosesWarnings(blocks, st, kinds)) == MissingFor(blocks, st)
    decreases |st|
  {
    if st != [] {
      var b, rest := st[|st| - 1], st[..|st| - 1];
      var cw, ws := CloseWarnings(blocks, b, kinds[0]), ClosesWarnings(blocks, rest, kinds[1..]);
      assert ClosesWarnings(blocks, st, kinds) == cw + ws;
      ClosesMissings(blocks, rest, kinds[1..]);
      MissingsAppend(cw, ws);
      CloseMissing(blocks, b, kinds[0]);
      assert rest + [b] == st;
      MissingForSnoc(blocks, rest, b);
    }
  }

  /** Closing one block raises exactly one missing-endblock warning. */
  lemma CloseMissing(blocks: seq<Block>, b: nat, k: Registration)
    requires b < |blocks|
    ensures Missings(CloseWarnings(blocks, b, k)) == [Missing(blocks[b].name)]
  {
    MissingsClose([], blocks[b].name, k);
    assert [] + InsertWarnings(blocks[b].name, k) + [Missing(blocks[b].name)] == CloseWarnings(blocks, b, k);
  }

  /** The open blocks are all from one file, so when the innermost is from
      another file than `trace` they all are: closing them until one from
      the file of `trace` is innermost closes them all. */
  lemma ForeignStops(blocks0: seq<Block>, st0: seq<nat>, blocks: seq<Block>, st: seq<nat>, trace: Trace)
    requires Nest(blocks0, st0) && Foreign(blocks0, st0, trace) && Extends(blocks0, blocks)
    requires |st| <= |st0| && st == st0[..|st|]
    requires st != [] ==> IsSameFile(blocks[st[|st| - 1]].trace, trace)
    ensures st == []
  {
    if st != [] {
      var k := |st| - 1;
      assert st[k] == st0[k] && blocks[st0[k]].trace == blocks0[st0[k]].trace;
      NestTopSameFile(blocks0, st0, k, trace);
    }
  }

  /** A prefix of a prefix is a prefix. */
  lemma PrefixOfPrefix(s: seq<nat>, t: seq<nat>, n: nat)
    requires |t| <= |s| && t == s[..|t|] && n <= |t|
    ensures t[..n] == s[..n]
  {
  }

  /** What force-closing a run of open blocks leaves: the arenas, how
      registering each block went, innermost first, and the offset the last
      block closed at (`None` when no block closed). */
  datatype Closes = Closes(arenas: Arenas, kinds: seq<Registration>, last: Option<nat>)

  /** Whether the innermost open block is from another file than `trace`. */
  predicate Foreign(blocks: seq<Block>, st: seq<nat>, trace: Trace)
    requires st != [] ==> st[|st| - 1] < |blocks|
  {
    st != [] && !IsSameFile(blocks[st[|st| - 1]].trace, trace)
  }

  /** The blocks once the base has ended at `at`, if it had not ended and
      the marker at `trace` is outside the base file. */
  function EndBaseAt(blocks: seq<Block>, trace: Trace, at: nat): seq<Block>
    requires blocks != []
  {
    if blocks[0].end == None && !InBase(blocks, trace) then blocks[0 := blocks[0].(end := Some(at))] else blocks
  }

  /** The part of a warning text raised at `trace` that goes into the
      capture at once: all of it in the base file, nothing elsewhere. */
  function Echo(blocks: seq<Block>, trace: Trace, s: string): string
    requires blocks != []
  {
    if InBase(blocks, trace) then s else ""
  }

  /** The part deferred to the end of the page: the rest. */
  function Defer(blocks: seq<Block>, trace: Trace, s: string): string
    requires blocks != []
  {
    if InBase(blocks, trace) then "" else s
  }

  /** Logging `ws1` with the text `t1` and then `ws2` with `t2`, the
      second time in a session whose blocks keep the traces of `blocks0`,
      is logging `ws1 + ws2` with the text `t1 + t2`. */
  lemma LogChain(blocks0: seq<Block>, blocks1: seq<Block>, trace: Trace,
                 w0: seq<Warning>, buf0: string, after0: string,
                 w1: seq<Warning>, buf1: string, after1: string,
                 w2: seq<Warning>, buf2: string, after2: string,
                 ws1: seq<Warning>, t1: string, ws2: seq<Warning>, t2: string)
    requires blocks0 != [] && blocks1 != [] && blocks1[0].trace == blocks0[0].trace
    requires w1 == w0 + ws1 && buf1 == buf0 + Echo(blocks0, trace, t1) && after1 == after0 + Defer(blocks0, trace, t1)
    requires w2 == w1 + ws2 && buf2 == buf1 + Echo(blocks1, trace, t2) && after2 == after1 + Defer(blocks1, trace, t2)
    ensures w2 == w0 + (ws1 + ws2)
    ensures buf2 == buf0 + Echo(blocks0, trace, t1 + t2) && after2 == after0 + Defer(blocks0, trace, t1 + t2)
  {
    RouteAppend(blocks0, trace, buf0, after0, t1, t2);
  }

  /** Routing `t1` and then `t2` is routing `t1 + t2`. */
  lemma RouteAppend(blocks: seq<Block>, trace: Trace, x: string, y: string, t1: string, t2: string)
    requires blocks != []
    ensures x + Echo(blocks, trace, t1) + Echo(blocks, trace, t2) == x + Echo(blocks, trace, t1 + t2)
    ensures y + Defer(blocks, trace, t1) + Defer(blocks, trace, t2) == y + Defer(blocks, trace, t1 + t2)
  {
    if InBase(blocks, trace) {
      AppendAssoc(x, t1, t2);
      assert y + "" + "" == y + ("" + "");
    } else {
      AppendAssoc(y, t1, t2);
      assert x + "" + "" == x + ("" + "");
    }
  }

  /** A string argument counts as given unless it is null, "" or "0". */
  predicate Truthy(name: Option<string>)
  {
    name.Some? && name.value != "" && name.value != "0"
  }

  /** The page the capture turns into: the parts of the base with the last
      one right-trimmed, the output after the last registered block when one
      was registered, then the deferred warnings. An unset base end is the
      end of the capture, and then nothing follows the parts. */
  ghost function Page(blocks: seq<Block>, anchors: seq<Anchor>, buffer: string, end: Option<nat>, after: string): string
    requires Ranked(blocks, anchors) && |blocks| > 0
  {
    var unset := blocks[0].end == None;
    var bs := if unset then blocks[0 := blocks[0].(end := Some(|buffer|))] else blocks;
    var e := if unset then None else end;
    assert Ranked(bs, anchors) by {
      assert forall c :: 0 <= c < |bs| ==> bs[c].children == blocks[c].children;
    }
    Concat(TrimLast(Parts(bs, anchors, 0, buffer))) + (if e.Some? then SubstrFrom(buffer, e.value) else "") + after
  }

  /** Setting an unset base end to the end of the capture leaves the page
      as it was. */
  lemma PageEnded(blocks: seq<Block>, anchors: seq<Anchor>, buffer: string, end: Option<nat>, after: string)
    requires Ranked(blocks, anchors) && |blocks| > 0 && blocks[0].end == None
    ensures Ranked(blocks[0 := blocks[0].(end := Some(|buffer|))], anchors)
    ensures Page(blocks[0 := blocks[0].(end := Some(|buffer|))], anchors, buffer, None, after)
      == Page(blocks, anchors, buffer, end, after)
  {
    var ended := blocks[0 := blocks[0].(end := Some(|buffer|))];
    assert forall c :: 0 <= c < |ended| ==> ended[c].children == blocks[c].children;
  }

  /** On a tree where no block was overridden, the page is the text the
      base covers, less some trailing blanks (those its last part ends
      in), then the output after the last registered block, then the
      deferred warnings. */
  lemma PageOfWellNested(blocks: seq<Block>, anchors: seq<Anchor>, buffer: string, end: Option<nat>, after: string)
    requires Ranked(blocks, anchors) && |blocks| > 0 && WellNested(blocks, anchors, 0, buffer)
    ensures var body := buffer[blocks[0].start..blocks[0].end.value];
      var tail := (if end.Some? then SubstrFrom(buffer, end.value) else "") + after;
      var p := Page(blocks, anchors, buffer, end, after);
      && |tail| <= |p| && |p| - |tail| <= |body|
      && p[..|p| - |tail|] == body[..|p| - |tail|] && p[|p| - |tail|..] == tail
      && forall i :: |p| - |tail| <= i < |body| ==> IsBlank(body[i])
  {
    var parts := Parts(blocks, anchors, 0, buffer);
    PartsRoundTrip(blocks, anchors, 0, buffer);
    TrimLastOnlyTrims(parts);
    var r := Concat(TrimLast(parts));
    var t := if end.Some? then SubstrFrom(buffer, end.value) else "";
    assert Page(blocks, anchors, buffer, end, after) == r + t + after;
    AppendAssoc(r, t, after);
  }

  /** A marker in the base template's own file; it never ends the session. */
  predicate InBase(blocks: seq<Block>, trace: Trace)
    requires blocks != []
    ensures InBase(blocks, trace) ==> Continues(blocks, trace)
  {
    IsSameFile(trace, blocks[0].trace)
  }

  /** A session runs and a marker with this trace belongs to it. */
  predicate Continues(blocks: seq<Block>, trace: Trace)
  {
    blocks != [] && InBaseOrChild(trace, blocks[0].trace)
  }

  /** Whether a warning raised at `trace` is written out at once rather
      than deferred to the end of the page. */
  predicate Immediate(blocks: seq<Block>, trace: Trace)
  {
    blocks == [] || InBase(blocks, trace)
  }

  /** The parts block `b` contributes to the page. */
  method Compile(blocks: seq<Block>, anchors: seq<Anchor>, b: nat, buffer: string) returns (parts: seq<string>)
    requires Ranked(blocks, anchors) && b < |blocks|
    ensures parts == Parts(blocks, anchors, b, buffer)
    decreases |blocks| - b
  {
    parts := [];
    var previous := blocks[b].start;
    var children := blocks[b].children;
    for i := 0 to |children|
      invariant parts == ChildParts(blocks, anchors, b, buffer, i)
      invariant previous == Cursor(blocks, anchors, b, i)
    {
      var a := anchors[children[i]];
      ChildPartsNext(blocks, anchors, b, buffer, i);
      parts := parts + [Substr(buffer, previous, a.start - previous)];
      var inner := Compile(blocks, anchors, a.block, buffer);
      parts := parts + inner;
      previous := a.end;
    }
    if Some(previous) != blocks[b].end {
      parts := parts + [Substr(buffer, previous, EndOr0(blocks[b].end) - previous)];
    }
  }

  class TemplateInheritance {
    /** Whether user warnings are reported at all. */
    const reporting: bool
    /** Whether warnings use the command-line format rather than markup. */
    const cli: bool

    /** The blocks of the running session; `blocks[0]` is the base block.
        Empty when there is no session. */
    var blocks: seq<Block>
    /** The slots of the running session. */
    var anchors: seq<Anchor>
    /** The open blocks, innermost last. */
    var stack: seq<nat>
    /** The slot registered under each name. */
    var hash: map<string, nat>
    /** Where the last registered block ended; the output after it is kept. */
    var end: Option<nat>
    /** Warnings from outside the base file, appended after the page. */
    var after: string

    /** The output captured since the session began. */
    var buf: string
    /** The output that went past the capture: before a session began, and
        each page a finished session delivered. */
    var out: string

    /** Every warning raised, reported or not. */
    ghost var warnings: seq<Warning>

    constructor (reporting: bool, cli: bool)
      ensures this.reporting == reporting && this.cli == cli
      ensures Valid() && blocks == [] && stack == []
      ensures buf == "" && out == "" && warnings == []
    {
      this.reporting := reporting;
      this.cli := cli;
      blocks := [];
      anchors := [];
      stack := [];
      hash := map[];
      end := None;
      after := "";
      buf := "";
      out := "";
      warnings := [];
    }

    ghost predicate Valid()
      reads this`blocks, this`anchors, this`hash, this`stack
    {
      if blocks == [] then stack == [] else Session(blocks, anchors, hash, stack)
    }

    // ----- warnings -----

    /** The text of a warning; the location is the warning trace's first
        frame, or the caller's when the warning trace is empty. Nothing is
        written when user warnings are not reported. */
    function WarningText(w: Warning, trace: Trace, warningTrace: Trace): (r: string)
      ensures r == "" <==> !reporting
    {
      if reporting then Format(cli, Message(w), if |warningTrace| > 0 then warningTrace else trace) else ""
    }

    /** Nothing of the session itself changed. */
    twostate predicate SessionUnchanged()
      reads this
    {
      blocks == old(blocks) && anchors == old(anchors) && hash == old(hash) && stack == old(stack) && end == old(end)
    }

    /** The log grew by `ws`, and the text `text` of those warnings went
        into the capture or was deferred as `Warn` routes it. */
    twostate predicate Logged(blocks0: seq<Block>, trace: Trace, ws: seq<Warning>, text: string)
      requires blocks0 != []
      reads this
    {
      warnings == old(warnings) + ws &&
      buf == old(buf) + Echo(blocks0, trace, text) && after == old(after) + Defer(blocks0, trace, text)
    }

    /** The log grew by the warnings of force-closing the innermost
        `|kinds|` of the open blocks `st0` as `kinds` says, and their text
        went where `Warn` routes it. */
    twostate predicate LoggedCloses(blocks0: seq<Block>, st0: seq<nat>, kinds: seq<Registration>, trace: Trace)
      requires blocks0 != [] && |kinds| <= |st0| && forall i :: 0 <= i < |st0| ==> st0[i] < |blocks0|
      reads this
    {
      Logged(blocks0, trace, ClosesWarnings(blocks0, st0, kinds), ClosesText(blocks0, st0, kinds, trace))
    }

    /** The text of the warning registering `b` raises when it went as
        `k`: a duplicate's, pointing at the block's own trace, or none. */
    function InsertText(blocks: seq<Block>, b: nat, k: Registration, trace: Trace): string
      requires b < |blocks|
    {
      if k == Duplicated then WarningText(Duplicate(blocks[b].name), trace, blocks[b].trace) else ""
    }

    /** The text of the missing-endblock warning for `b`, raised at `trace`
        and pointing at the block's own trace. */
    function MissingText(blocks: seq<Block>, b: nat, trace: Trace): string
      requires b < |blocks|
    {
      WarningText(Missing(blocks[b].name), trace, blocks[b].trace)
    }

    /** The text of the warnings force-closing `b` raises. */
    function CloseText(blocks: seq<Block>, b: nat, k: Registration, trace: Trace): string
      requires b < |blocks|
    {
      InsertText(blocks, b, k, trace) + MissingText(blocks, b, trace)
    }

    /** The text of the warnings of `ClosesWarnings`, in the same order. */
    function ClosesText(blocks: seq<Block>, st: seq<nat>, kinds: seq<Registration>, trace: Trace): string
      requires |kinds| <= |st| && forall i :: 0 <= i < |st| ==> st[i] < |blocks|
      decreases |kinds|
    {
      if kinds == [] then ""
      else CloseText(blocks, st[|st| - 1], kinds[0], trace) + ClosesText(blocks, st[..|st| - 1], kinds[1..], trace)
    }

    /** The offsets the forced closes of the open blocks `st` happen at,
        innermost first: the first at `at`, each later one past the
        missing-endblock text of the one before when `grow` says that text
        went into the capture. Only the outermost close can raise a
        duplicate warning, and nothing closes after it. */
    ghost function Offsets(blocks: seq<Block>, st: seq<nat>, at: nat, grow: bool, trace: Trace): (r: seq<nat>)
      requires forall i :: 0 <= i < |st| ==> st[i] < |blocks|
      ensures |r| == |st| && (st != [] ==> r[0] == at)
      ensures forall k :: 0 <= k < |r| ==> at <= r[k]
      ensures !grow ==> forall k :: 0 <= k < |r| ==> r[k] == at
      decreases |st|
    {
      if st == [] then []
      else
        var next := if grow then at + |MissingText(blocks, st[|st| - 1], trace)| else at;
        [at] + Offsets(blocks, st[..|st| - 1], next, grow, trace)
    }

    /** Force-closing the open blocks `st`, innermost first, the `k`-th at
        offset `ats[k]`: each is popped and registered there. */
    ghost function ForceClose(a: Arenas, st: seq<nat>, ats: seq<nat>): (r: Closes)
      requires Session(a.blocks, a.anchors, a.hash, st) && |ats| == |st|
      ensures Session(r.arenas.blocks, r.arenas.anchors, r.arenas.hash, []) && |r.kinds| == |st|
      ensures |r.arenas.blocks| == |a.blocks|
      decreases |st|
    {
      if st == [] then Closes(a, [], None)
      else
        var b, rest := st[|st| - 1], st[..|st| - 1];
        assert rest + [b] == st;
        var r := ForceClose(Register(a.blocks, a.anchors, a.hash, rest, b, ats[0]), rest, ats[1..]);
        Closes(r.arenas, [Kind(a.blocks, a.anchors, a.hash, b, rest != [])] + r.kinds, if r.last == None then Some(ats[0]) else r.last)
    }

    /** The forced closes a block opened at `trace` makes: all the open
        blocks when the innermost is from another file, none otherwise. Their
        texts go into the capture when `trace` is in the base file, so each
        later close is past them. */
    ghost function ForeignCloses(a: Arenas, st: seq<nat>, at: nat, trace: Trace): (r: Closes)
      requires Session(a.blocks, a.anchors, a.hash, st)
      ensures Session(r.arenas.blocks, r.arenas.anchors, r.arenas.hash, [])
      ensures r.kinds == [] || |r.kinds| == |st|
    {
      if Foreign(a.blocks, st, trace) then ForceClose(a, st, Offsets(a.blocks, st, at, InBase(a.blocks, trace), trace))
      else Closes(a, [], None)
    }

    /** One forced close more: the innermost block `b` is registered at
        `ats[0]`, and the rest close at the later offsets. */
    lemma ForceCloseStep(a: Arenas, st: seq<nat>, ats: seq<nat>)
      requires Session(a.blocks, a.anchors, a.hash, st) && |ats| == |st| && st != []
      ensures var b, rest := st[|st| - 1], st[..|st| - 1];
        && Session(a.blocks, a.anchors, a.hash, rest + [b]) && 0 < b < |a.blocks|
        && (forall i :: 0 <= i < |rest| ==> rest[i] < b)
        && var next := Register(a.blocks, a.anchors, a.hash, rest, b, ats[0]);
        && var r := ForceClose(next, rest, ats[1..]);
        && ForceClose(a, st, ats)
           == Closes(r.arenas, [Kind(a.blocks, a.anchors, a.hash, b, rest != [])] + r.kinds, if r.last == None then Some(ats[0]) else r.last)
    {
      var b, rest := st[|st| - 1], st[..|st| - 1];
      assert rest + [b] == st;
      SessionPop(a.blocks, a.anchors, a.hash, rest, b);
      forall i | 0 <= i < |rest|
        ensures rest[i] < b
      {
        assert Below(st, i, |st| - 1);
      }
    }

    /** Force-closing keeps every block's identity and the end of every
        block that was not open. */
    lemma {:induction false} ForceCloseFrame(a: Arenas, st: seq<nat>, ats: seq<nat>)
      requires Session(a.blocks, a.anchors, a.hash, st) && |ats| == |st|
      ensures var r := ForceClose(a, st, ats);
        && Extends(a.blocks, r.arenas.blocks) && |r.arenas.blocks| == |a.blocks|
        && (forall c :: 0 <= c < |a.blocks| && c !in st ==> r.arenas.blocks[c].end == a.blocks[c].end)
        && r.last == (if st == [] then None else Some(ats[|ats| - 1]))
      decreases |st|
    {
      if st != [] {
        ForceCloseStep(a, st, ats);
        var b, rest := st[|st| - 1], st[..|st| - 1];
        var next := Register(a.blocks, a.anchors, a.hash, rest, b, ats[0]);
        ForceCloseFrame(next, rest, ats[1..]);
        var r := ForceClose(next, rest, ats[1..]);
        ExtendsTrans(a.blocks, next.blocks, r.arenas.blocks);
        forall c | 0 <= c < |a.blocks| && c !in st
          ensures r.arenas.blocks[c].end == a.blocks[c].end
        {
          assert c != b && c !in rest;
        }
      }
    }

    /** Force-closing ends every open block, the `k`-th close at `ats[k]`. */
    lemma {:induction false} ForceCloseEnds(a: Arenas, st: seq<nat>, ats: seq<nat>)
      requires Session(a.blocks, a.anchors, a.hash, st) && |ats| == |st|
      ensures var r := ForceClose(a, st, ats);
        && |r.arenas.blocks| == |a.blocks|
        && forall i :: 0 <= i < |st| ==> r.arenas.blocks[st[i]].end == Some(ats[|st| - 1 - i])
      decreases |st|
    {
      if st != [] {
        ForceCloseStep(a, st, ats);
        var b, rest := st[|st| - 1], st[..|st| - 1];
        var next := Register(a.blocks, a.anchors, a.hash, rest, b, ats[0]);
        var r := ForceClose(next, rest, ats[1..]);
        assert forall i :: 0 <= i < |rest| ==> rest[i] < |r.arenas.blocks| && r.arenas.blocks[rest[i]].end == Some(ats[1..][|rest| - 1 - i]) by {
          ForceCloseEnds(next, rest, ats[1..]);
        }
        assert b < |r.arenas.blocks| && r.arenas.blocks[b].end == Some(ats[0]) by {
          assert b !in rest;
          ForceCloseFrame(next, rest, ats[1..]);
        }
        SplitLast(st);
        assert ForceClose(a, st, ats).arenas == r.arenas;
        EndsSnoc(r.arenas.blocks, rest, b, ats);
      }
    }

    /** The ends of the open blocks `rest + [b]` once `b` ended at `ats[0]`
        and the rest at the later offsets. */
    lemma EndsSnoc(blocks: seq<Block>, rest: seq<nat>, b: nat, ats: seq<nat>)
      requires b < |blocks| && |ats| == |rest| + 1 && blocks[b].end == Some(ats[0])
      requires forall i :: 0 <= i < |rest| ==> rest[i] < |blocks| && blocks[rest[i]].end == Some(ats[1..][|rest| - 1 - i])
      ensures forall i :: 0 <= i < |rest| + 1 ==> (rest + [b])[i] < |blocks| && blocks[(rest + [b])[i]].end == Some(ats[|rest| - i])
    {
      forall i | 0 <= i < |rest| + 1
        ensures (rest + [b])[i] < |blocks| && blocks[(rest + [b])[i]].end == Some(ats[|rest| - i])
      {
        if i < |rest| {
          assert (rest + [b])[i] == rest[i] && ats[1..][|rest| - 1 - i] == ats[|rest| - i];
        }
      }
    }

    /** The state of force-closing the open blocks of a session that
        started from `blocks0`, with the open blocks `st` left to close, the
        next at offset `at`: closing them still reaches the arenas `f0`, the
        warnings `w0 + ws0` and the text `text0` routed from `buf0` and
        `after0`, and the last registered block ends where `f0` says. */
    ghost predicate Closing(blocks0: seq<Block>, trace: Trace, grow: bool, f0: Closes, w0: seq<Warning>, ws0: seq<Warning>,
                            buf0: string, after0: string, text0: string, end0: Option<nat>,
                            a: Arenas, st: seq<nat>, at: nat, ws: seq<Warning>, buf: string, after: string, end: Option<nat>)
    {
      blocks0 != [] && Session(a.blocks, a.anchors, a.hash, st) && Extends(blocks0, a.blocks) &&
      (forall i :: 0 <= i < |st| ==> st[i] < |blocks0|) &&
      Tally(blocks0, trace, f0, w0, ws0, buf0, after0, text0, end0,
            ForceClose(a, st, Offsets(blocks0, st, at, grow, trace)), st, ws, buf, after, end)
    }

    /** What is left once closing the open blocks `st` as `f` says ends
        the closing: the arenas of `f0`, the warnings `w0 + ws0`, the text
        `text0` routed from `buf0` and `after0`, and the end `f0` says. */
    ghost predicate Tally(blocks0: seq<Block>, trace: Trace, f0: Closes, w0: seq<Warning>, ws0: seq<Warning>,
                          buf0: string, after0: string, text0: string, end0: Option<nat>,
                          f: Closes, st: seq<nat>, ws: seq<Warning>, buf: string, after: string, end: Option<nat>)
    {
      && blocks0 != [] && |f.kinds| <= |st| && (forall i :: 0 <= i < |st| ==> st[i] < |blocks0|)
      && f.arenas == f0.arenas
      && w0 + ws0 == ws + ClosesWarnings(blocks0, st, f.kinds)
      && buf0 + Echo(blocks0, trace, text0) == buf + Echo(blocks0, trace, ClosesText(blocks0, st, f.kinds, trace))
      && after0 + Defer(blocks0, trace, text0) == after + Defer(blocks0, trace, ClosesText(blocks0, st, f.kinds, trace))
      && (if f.last.Some? then f.last else end) == (if f0.last.Some? then f0.last else end0)
    }

    /** Closing the innermost open block `k`-wise and logging it moves the
        tally to the rest of the closes. */
    lemma TallyStep(blocks0: seq<Block>, trace: Trace, f0: Closes, w0: seq<Warning>, ws0: seq<Warning>,
                    buf0: string, after0: string, text0: string, end0: Option<nat>,
                    f: Closes, st: seq<nat>, ws: seq<Warning>, buf: string, after: string, end: Option<nat>,
                    k: Registration, r: Closes, at: nat, ws2: seq<Warning>, buf2: string, after2: string)
      requires Tally(blocks0, trace, f0, w0, ws0, buf0, after0, text0, end0, f, st, ws, buf, after, end)
      requires st != [] && |r.kinds| + 1 == |st|
      requires f == Closes(r.arenas, [k] + r.kinds, if r.last == None then Some(at) else r.last)
      requires ws2 == ws + CloseWarnings(blocks0, st[|st| - 1], k)
      requires buf2 == buf + Echo(blocks0, trace, CloseText(blocks0, st[|st| - 1], k, trace))
      requires after2 == after + Defer(blocks0, trace, CloseText(blocks0, st[|st| - 1], k, trace))
      ensures Tally(blocks0, trace, f0, w0, ws0, buf0, after0, text0, end0, r, st[..|st| - 1], ws2, buf2, after2, Some(at))
    {
      var b, rest := st[|st| - 1], st[..|st| - 1];
      ClosesCons(blocks0, st, k, r.kinds, trace);
      var ct, rt := CloseText(blocks0, b, k, trace), ClosesText(blocks0, rest, r.kinds, trace);
      LogStep(w0 + ws0, ws, ws2, CloseWarnings(blocks0, b, k), ClosesWarnings(blocks0, rest, r.kinds));
      RouteStep(blocks0, trace, buf0 + Echo(blocks0, trace, text0), after0 + Defer(blocks0, trace, text0), buf, after, buf2, after2, ct, rt);
    }

    /** Force-closing the innermost open block as `CloseTop` does takes the
        closing one block further; the next close is past the block's
        missing-endblock text when that text went into the capture. */
    lemma ClosingStep(blocks0: seq<Block>, trace: Trace, grow: bool, f0: Closes, w0: seq<Warning>, ws0: seq<Warning>,
                      buf0: string, after0: string, text0: string, end0: Option<nat>,
                      a: Arenas, st: seq<nat>, at: nat, ws: seq<Warning>, buf: string, after: string, end: Option<nat>,
                      k: Registration, a2: Arenas, rest2: seq<nat>, at2: nat, ws2: seq<Warning>, buf2: string, after2: string, end2: Option<nat>)
      requires Closing(blocks0, trace, grow, f0, w0, ws0, buf0, after0, text0, end0, a, st, at, ws, buf, after, end)
      requires st != [] && st[|st| - 1] < |a.blocks| && Session(a.blocks, a.anchors, a.hash, st[..|st| - 1] + [st[|st| - 1]])
      requires var b, rest := st[|st| - 1], st[..|st| - 1];
        && 0 < b
        && k == Kind(a.blocks, a.anchors, a.hash, b, rest != [])
        && a2 == Register(a.blocks, a.anchors, a.hash, rest, b, at)
        && ws2 == ws + CloseWarnings(a.blocks, b, k)
        && buf2 == buf + Echo(a.blocks, trace, CloseText(a.blocks, b, k, trace))
        && after2 == after + Defer(a.blocks, trace, CloseText(a.blocks, b, k, trace))
        && (rest != [] ==> at2 == if grow then at + |MissingText(blocks0, b, trace)| else at)
        && end2 == Some(at) && rest2 == rest
      ensures Closing(blocks0, trace, grow, f0, w0, ws0, buf0, after0, text0, end0,
                      a2, rest2, at2, ws2, buf2, after2, end2)
    {
      var b, rest := st[|st| - 1], st[..|st| - 1];
      var ats := Offsets(blocks0, st, at, grow, trace);
      OffsetsNext(blocks0, st, at, grow, trace, at2);
      ForceCloseStep(a, st, ats);
      ExtendsTrans(blocks0, a.blocks, a2.blocks);
      CloseSame(blocks0, a.blocks, b, k, trace);
      ClosingAdvance(blocks0, trace, grow, f0, w0, ws0, buf0, after0, text0, end0, a, st, at, ws, buf, after, end,
                     k, a2, at2, ws2, buf2, after2);
    }

    /** `ClosingStep` once the innermost close is known as one step of
        `ForceClose`. */
    lemma ClosingAdvance(blocks0: seq<Block>, trace: Trace, grow: bool, f0: Closes, w0: seq<Warning>, ws0: seq<Warning>,
                         buf0: string, after0: string, text0: string, end0: Option<nat>,
                         a: Arenas, st: seq<nat>, at: nat, ws: seq<Warning>, buf: string, after: string, end: Option<nat>,
                         k: Registration, a2: Arenas, at2: nat, ws2: seq<Warning>, buf2: string, after2: string)
      requires Closing(blocks0, trace, grow, f0, w0, ws0, buf0, after0, text0, end0, a, st, at, ws, buf, after, end)
      requires st != [] && Session(a2.blocks, a2.anchors, a2.hash, st[..|st| - 1]) && Extends(blocks0, a2.blocks)
      requires var b, rest := st[|st| - 1], st[..|st| - 1];
        var ats := Offsets(blocks0, st, at, grow, trace);
        && ats[1..] == Offsets(blocks0, rest, at2, grow, trace)
        && var r := ForceClose(a2, rest, ats[1..]);
        && ForceClose(a, st, ats) == Closes(r.arenas, [k] + r.kinds, if r.last == None then Some(at) else r.last)
        && ws2 == ws + CloseWarnings(blocks0, b, k)
        && buf2 == buf + Echo(blocks0, trace, CloseText(blocks0, b, k, trace))
        && after2 == after + Defer(blocks0, trace, CloseText(blocks0, b, k, trace))
      ensures Closing(blocks0, trace, grow, f0, w0, ws0, buf0, after0, text0, end0,
                      a2, st[..|st| - 1], at2, ws2, buf2, after2, Some(at))
    {
      var rest := st[..|st| - 1];
      var ats := Offsets(blocks0, st, at, grow, trace);
      var r := ForceClose(a2, rest, ats[1..]);
      TallyStep(blocks0, trace, f0, w0, ws0, buf0, after0, text0, end0, ForceClose(a, st, ats), st, ws, buf, after, end,
                k, r, at, ws2, buf2, after2);
    }

    /** The offsets of the closes after the innermost one. */
    lemma OffsetsNext(blocks0: seq<Block>, st: seq<nat>, at: nat, grow: bool, trace: Trace, at2: nat)
      requires st != [] && forall i :: 0 <= i < |st| ==> st[i] < |blocks0|
      requires st[..|st| - 1] != [] ==> at2 == if grow then at + |MissingText(blocks0, st[|st| - 1], trace)| else at
      ensures Offsets(blocks0, st, at, grow, trace)[1..] == Offsets(blocks0, st[..|st| - 1], at2, grow, trace)
    {
    }

    /** The warnings and text of force-closing the innermost block `k`-wise
        and then the rest. */
    lemma ClosesCons(blocks: seq<Block>, st: seq<nat>, k: Registration, kinds: seq<Registration>, trace: Trace)
      requires |kinds| + 1 == |st| && forall i :: 0 <= i < |st| ==> st[i] < |blocks|
      ensures ClosesWarnings(blocks, st, [k] + kinds)
        == CloseWarnings(blocks, st[|st| - 1], k) + ClosesWarnings(blocks, st[..|st| - 1], kinds)
      ensures ClosesText(blocks, st, [k] + kinds, trace)
        == CloseText(blocks, st[|st| - 1], k, trace) + ClosesText(blocks, st[..|st| - 1], kinds, trace)
    {
      assert ([k] + kinds)[0] == k && ([k] + kinds)[1..] == kinds;
    }

    /** The warnings of closing a block depend only on its identity. */
    lemma CloseSame(blocks0: seq<Block>, blocks: seq<Block>, b: nat, k: Registration, trace: Trace)
      requires Extends(blocks0, blocks) && b < |blocks0| && blocks0 != []
      ensures CloseWarnings(blocks, b, k) == CloseWarnings(blocks0, b, k)
      ensures CloseText(blocks, b, k, trace) == CloseText(blocks0, b, k, trace)
      ensures forall t :: Echo(blocks, trace, t) == Echo(blocks0, trace, t) && Defer(blocks, trace, t) == Defer(blocks0, trace, t)
    {
      assert blocks[b].name == blocks0[b].name && blocks[b].trace == blocks0[b].trace;
    }

    /** Logging `c` and then `r` is logging `c + r`. */
    lemma LogStep(total: seq<Warning>, ws: seq<Warning>, ws2: seq<Warning>, c: seq<Warning>, r: seq<Warning>)
      requires total == ws + (c + r) && ws2 == ws + c
      ensures total == ws2 + r
    {
    }

    /** Routing the text `ct` and then `rt` is routing `ct + rt`. */
    lemma RouteStep(blocks0: seq<Block>, trace: Trace, bufTotal: string, afterTotal: string,
                    buf: string, after: string, buf2: string, after2: string, ct: string, rt: string)
      requires blocks0 != []
      requires bufTotal == buf + Echo(blocks0, trace, ct + rt) && buf2 == buf + Echo(blocks0, trace, ct)
      requires afterTotal == after + Defer(blocks0, trace, ct + rt) && after2 == after + Defer(blocks0, trace, ct)
      ensures bufTotal == buf2 + Echo(blocks0, trace, rt) && afterTotal == after2 + Defer(blocks0, trace, rt)
    {
      RouteAppend(blocks0, trace, buf, after, ct, rt);
    }

    /** Before the first close, the closing is ahead in full. */
    lemma ClosingStart(blocks0: seq<Block>, trace: Trace, grow: bool, a: Arenas, st: seq<nat>, at: nat,
                       ws: seq<Warning>, buf: string, after: string, end: Option<nat>)
      requires blocks0 != [] && a.blocks == blocks0 && Session(a.blocks, a.anchors, a.hash, st)
      ensures var f := ForceClose(a, st, Offsets(blocks0, st, at, grow, trace));
        Closing(blocks0, trace, grow, f, ws, ClosesWarnings(blocks0, st, f.kinds), buf, after,
                ClosesText(blocks0, st, f.kinds, trace), end, a, st, at, ws, buf, after, end)
    {
    }

    /** With no open block left, the closing has reached its end. */
    lemma ClosingDone(blocks0: seq<Block>, trace: Trace, grow: bool, f0: Closes, w0: seq<Warning>, ws0: seq<Warning>,
                      buf0: string, after0: string, text0: string, end0: Option<nat>,
                      a: Arenas, at: nat, ws: seq<Warning>, buf: string, after: string, end: Option<nat>)
      requires Closing(blocks0, trace, grow, f0, w0, ws0, buf0, after0, text0, end0, a, [], at, ws, buf, after, end)
      ensures a == f0.arenas && ws == w0 + ws0 && (if f0.last.Some? then f0.last else end0) == end
      ensures buf == buf0 + Echo(blocks0, trace, text0) && after == after0 + Defer(blocks0, trace, text0)
    {
      assert ws + [] == ws && buf + "" == buf && after + "" == after;
    }

    /** Where the next close happens once the innermost block closed: past
        its missing-endblock text when that text went into the capture.
        Closing a block inside another raises no duplicate warning. */
    lemma CloseOffset(blocks: seq<Block>, b: nat, k: Registration, blocks0: seq<Block>, trace: Trace, buf: string)
      requires b < |blocks0| && k != Duplicated && Extends(blocks0, blocks) && blocks0 != []
      ensures |buf + Echo(blocks0, trace, CloseText(blocks, b, k, trace))|
        == if InBase(blocks0, trace) then |buf| + |MissingText(blocks0, b, trace)| else |buf|
    {
      assert CloseText(blocks, b, k, trace) == MissingText(blocks0, b, trace);
    }

    /** Template output: captured while a session runs. */
    method Emit(s: string)
      modifies this
      ensures SessionUnchanged() && after == old(after) && warnings == old(warnings)
      ensures buf == old(buf) + (if blocks != [] then s else "")
      ensures out == old(out) + (if blocks == [] then s else "")
    {
      if blocks != [] {
        buf := buf + s;
      } else {
        out := out + s;
      }
    }

    /** Raises `w` at the marker `trace`: the text is written out at once
        when there is no session or the marker is in the base file, and
        deferred to the end of the page otherwise. */
    method Warn(w: Warning, trace: Trace, warningTrace: Trace)
      modifies this
      ensures SessionUnchanged() && warnings == old(warnings) + [w]
      ensures Immediate(blocks, trace) ==>
        && after == old(after)
        && buf == old(buf) + (if blocks != [] then WarningText(w, trace, warningTrace) else "")
        && out == old(out) + (if blocks == [] then WarningText(w, trace, warningTrace) else "")
      ensures !Immediate(blocks, trace) ==>
        after == old(after) + WarningText(w, trace, warningTrace) && buf == old(buf) && out == old(out)
      ensures blocks != [] ==> out == old(out) && Logged(blocks, trace, [w], WarningText(w, trace, warningTrace))
    {
      var s := WarningText(w, trace, warningTrace);
      if reporting {
        if blocks == [] || InBase(blocks, trace) {
          Emit(s);
        } else {
          after := after + s;
        }
      }
      warnings := warnings + [w];
    }

    /** The texts of the missing-endblock warnings for the open blocks
        `st`, innermost first, raised at `trace`. */
    function MissingTexts(blocks: seq<Block>, st: seq<nat>, trace: Trace): string
      requires forall i :: 0 <= i < |st| ==> st[i] < |blocks|
    {
      if st == [] then ""
      else MissingTexts(blocks, st[1..], trace) + WarningText(Missing(blocks[st[0]].name), trace, blocks[st[0]].trace)
    }

    // ----- registering closed blocks -----

    /** Registers `b`, which was just popped off the stack, as closed at
        offset `at` (the current output length), warning about a second
        top-level block of one name from one file. */
    method InsertBlock(b: nat, at: nat, trace: Trace) returns (k: Registration)
      requires Session(blocks, anchors, hash, stack + [b]) && 0 < b < |blocks|
      modifies this
      ensures k == old(Kind(blocks, anchors, hash, b, stack != [])) && stack == old(stack)
      ensures Session(blocks, anchors, hash, stack) && out == old(out) && end == Some(at)
      ensures Arenas(blocks, anchors, hash) == old(Register(blocks, anchors, hash, stack, b, at))
      ensures Logged(old(blocks), trace, InsertWarnings(old(blocks[b].name), k), InsertText(old(blocks), b, k, trace))
    {
      var name, from := blocks[b].name, blocks[b].trace;
      k := Kind(blocks, anchors, hash, b, stack != []);
      var r := Register(blocks, anchors, hash, stack, b, at);
      blocks, anchors, hash, end := r.blocks, r.anchors, r.hash, Some(at);
      if k == Duplicated {
        Warn(Duplicate(name), trace, from);
      }
    }

    /** Force-closes the innermost open block at offset `at`: pops it,
        registers it and warns that its endblock is missing. */
    method CloseTop(at: nat, trace: Trace) returns (k: Registration)
      requires Valid() && stack != []
      modifies this
      ensures Valid() && blocks != [] && out == old(out) && end == Some(at)
      ensures old(stack) == stack + [old(stack)[|old(stack)| - 1]] && stack == old(stack)[..|old(stack)| - 1]
      ensures var a, t := old(Arenas(blocks, anchors, hash)), old(stack)[|old(stack)| - 1];
        && k == Kind(a.blocks, a.anchors, a.hash, t, stack != [])
        && Arenas(blocks, anchors, hash) == Register(a.blocks, a.anchors, a.hash, stack, t, at)
        && Logged(a.blocks, trace, CloseWarnings(a.blocks, t, k), CloseText(a.blocks, t, k, trace))
    {
      ghost var blocks0, w0, buf0, after0, out0 := blocks, warnings, buf, after, out;
      var b := stack[|stack| - 1];
      var rest := stack[..|stack| - 1];
      assert rest + [b] == stack;
      stack := rest;
      var name, from := blocks[b].name, blocks[b].trace;
      k := InsertBlock(b, at, trace);
      ghost var blocks1, anchors1, hash1 := blocks, anchors, hash;
      ghost var w1, buf1, after1 := warnings, buf, after;
      assert Session(blocks1, anchors1, hash1, rest) && out == out0 && blocks1[0].trace == blocks0[0].trace;
      Warn(Missing(name), trace, from);
      assert blocks == blocks1 && anchors == anchors1 && hash == hash1 && stack == rest && out == out0 && end == Some(at);
      LogChain(blocks0, blocks1, trace, w0, buf0, after0, w1, buf1, after1, warnings, buf, after,
               InsertWarnings(name, k), InsertText(blocks0, b, k, trace), [Missing(name)], MissingText(blocks0, b, trace));
    }

    /** Force-closes the open blocks while the innermost is from another
        file than `trace`. They are all from one file, so this closes all of
        them or none. */
    method CloseForeign(trace: Trace)
      requires Valid() && blocks != []
      modifies this
      ensures Valid() && blocks != [] && out == old(out)
      ensures stack == if old(Foreign(blocks, stack, trace)) then [] else old(stack)
      ensures stack != [] ==> IsSameFile(blocks[stack[|stack| - 1]].trace, trace)
      ensures var f := old(ForeignCloses(Arenas(blocks, anchors, hash), stack, |buf|, trace));
        && Arenas(blocks, anchors, hash) == f.arenas && end == (if f.last.Some? then f.last else old(end))
        && LoggedCloses(old(blocks), old(stack), f.kinds, trace)
    {
      if Foreign(blocks, stack, trace) {
        CloseForeignRun(trace);
      } else {
        assert warnings + [] == warnings && buf + "" == buf && after + "" == after;
      }
    }

    /** The loop of `CloseForeign` once the innermost open block is from
        another file: it runs until every open block closed. */
    method CloseForeignRun(trace: Trace)
      requires Valid() && blocks != [] && Foreign(blocks, stack, trace)
      modifies this
      ensures Valid() && blocks != [] && out == old(out) && stack == []
      ensures var f := old(ForceClose(Arenas(blocks, anchors, hash), stack, Offsets(blocks, stack, |buf|, InBase(blocks, trace), trace)));
        && Arenas(blocks, anchors, hash) == f.arenas && end == (if f.last.Some? then f.last else old(end))
        && LoggedCloses(old(blocks), old(stack), f.kinds, trace)
    {
      ghost var blocks0, st0, end0 := blocks, stack, end;
      ghost var w0, buf0, after0, out0 := warnings, buf, after, out;
      ghost var f0 := ForceClose(Arenas(blocks, anchors, hash), stack, Offsets(blocks, stack, |buf|, InBase(blocks0, trace), trace));
      ghost var ws0, text0 := ClosesWarnings(blocks0, st0, f0.kinds), ClosesText(blocks0, st0, f0.kinds, trace);
      ClosingStart(blocks0, trace, InBase(blocks0, trace), Arenas(blocks, anchors, hash), stack, |buf|, warnings, buf, after, end);
      assert Nest(blocks0, st0);
      CloseForeignLoop(trace, blocks0, st0, f0, w0, ws0, buf0, after0, text0, end0);
      ClosingDone(blocks0, trace, InBase(blocks0, trace), f0, w0, ws0, buf0, after0, text0, end0, Arenas(blocks, anchors, hash), |buf|, warnings, buf, after, end);
    }

    /** The loop of `CloseForeignRun`: force-closes the innermost open
        block while it is from another file than `trace`. */
    method CloseForeignLoop(trace: Trace, ghost blocks0: seq<Block>, ghost st0: seq<nat>, ghost f0: Closes,
                            ghost w0: seq<Warning>, ghost ws0: seq<Warning>, ghost buf0: string, ghost after0: string,
                            ghost text0: string, ghost end0: Option<nat>)
      requires blocks != [] && Nest(blocks0, st0) && Foreign(blocks0, st0, trace) && stack == st0
      requires Closing(blocks0, trace, InBase(blocks0, trace), f0, w0, ws0, buf0, after0, text0, end0,
                       Arenas(blocks, anchors, hash), stack, |buf|, warnings, buf, after, end)
      modifies this
      ensures blocks != [] && out == old(out) && stack == []
      ensures Closing(blocks0, trace, InBase(blocks0, trace), f0, w0, ws0, buf0, after0, text0, end0,
                      Arenas(blocks, anchors, hash), stack, |buf|, warnings, buf, after, end)
    {
      ghost var out0 := out;
      assert st0[..|st0|] == st0;
      while stack != [] && !IsSameFile(blocks[stack[|stack| - 1]].trace, trace)
        invariant blocks != [] && out == out0
        invariant |stack| <= |st0| && stack == st0[..|stack|]
        invariant Closing(blocks0, trace, InBase(blocks0, trace), f0, w0, ws0, buf0, after0, text0, end0,
                          Arenas(blocks, anchors, hash), stack, |buf|, warnings, buf, after, end)
        decreases |stack|
      {
        CloseForeignTop(trace, blocks0, st0, f0, w0, ws0, buf0, after0, text0, end0);
      }
      // the loop stops only once every open block closed
      ForeignStops(blocks0, st0, blocks, stack, trace);
    }

    /** One round of `CloseForeign`: force-closes the innermost open block
        at the current end of the capture, which takes the closing of the
        open blocks `st0` one block further. */
    method CloseForeignTop(trace: Trace, ghost blocks0: seq<Block>, ghost st0: seq<nat>, ghost f0: Closes,
                           ghost w0: seq<Warning>, ghost ws0: seq<Warning>, ghost buf0: string, ghost after0: string,
                           ghost text0: string, ghost end0: Option<nat>)
      requires blocks != [] && blocks0 != [] && stack != [] && |stack| <= |st0| && stack == st0[..|stack|]
      requires Closing(blocks0, trace, InBase(blocks0, trace), f0, w0, ws0, buf0, after0, text0, end0,
                       Arenas(blocks, anchors, hash), stack, |buf|, warnings, buf, after, end)
      modifies this
      ensures blocks != [] && out == old(out)
      ensures |stack| < |old(stack)| && stack == st0[..|stack|]
      ensures Closing(blocks0, trace, InBase(blocks0, trace), f0, w0, ws0, buf0, after0, text0, end0,
                      Arenas(blocks, anchors, hash), stack, |buf|, warnings, buf, after, end)
    {
      ghost var cur, st, ws, buf1, after1, end1 := Arenas(blocks, anchors, hash), stack, warnings, buf, after, end;
      var k := CloseTop(|buf|, trace);
      PrefixOfPrefix(st0, st, |stack|);
      if stack != [] {
        CloseOffset(cur.blocks, st[|st| - 1], k, blocks0, trace, buf1);
      }
      ClosingStep(blocks0, trace, InBase(blocks0, trace), f0, w0, ws0, buf0, after0, text0, end0, cur, st, |buf1|, ws, buf1, after1, end1,
                  k, Arenas(blocks, anchors, hash), stack, |buf|, warnings, buf, after, end);
    }

    /** Prepares a block opened at `trace`: first force-closes the open
        blocks from other files; then, when the marker is outside the base
        file, ends the base there unless it already ended. */
    method NewBlock(name: string, trace: Trace) returns (nb: Block)
      requires Valid() && blocks != []
      modifies this
      ensures Valid() && blocks != [] && out == old(out)
      ensures stack == if old(Foreign(blocks, stack, trace)) then [] else old(stack)
      ensures stack != [] ==> IsSameFile(blocks[stack[|stack| - 1]].trace, trace)
      ensures var f := old(ForeignCloses(Arenas(blocks, anchors, hash), stack, |buf|, trace));
        && blocks == EndBaseAt(f.arenas.blocks, trace, |buf|) && anchors == f.arenas.anchors && hash == f.arenas.hash
        && end == (if f.last.Some? then f.last else old(end))
        && LoggedCloses(old(blocks), old(stack), f.kinds, trace)
      ensures nb == Block(name, trace, |buf|, None, [])
    {
      CloseForeign(trace);
      EndBase(trace);
      nb := Block(name, trace, |buf|, None, []);
    }

    /** Ends the base at the current offset when a marker outside the base
        file fires and the base has not ended yet. */
    method EndBase(trace: Trace)
      requires Valid() && blocks != []
      modifies this
      ensures Valid() && blocks != [] && Extends(old(blocks), blocks) && |blocks| == |old(blocks)|
      ensures anchors == old(anchors) && hash == old(hash) && stack == old(stack) && end == old(end)
      ensures buf == old(buf) && after == old(after) && out == old(out) && warnings == old(warnings)
      ensures blocks[0].end == if old(blocks[0].end) == None && !InBase(blocks, trace) then Some(|buf|) else old(blocks[0].end)
      ensures forall c :: 0 < c < |blocks| ==> blocks[c] == old(blocks[c])
      ensures blocks == old(EndBaseAt(blocks, trace, |buf|))
    {
      if blocks[0].end == None && !InBase(blocks, trace) {
        var ended := blocks[0 := blocks[0].(end := Some(|buf|))];
        SessionSameShape(blocks, ended, anchors, hash, stack);
        blocks := ended;
      }
    }

    /** Appending the text of one missing-endblock warning more. */
    lemma MissingTextsStep(blocks: seq<Block>, st: seq<nat>, n: nat, trace: Trace, x0: string, x: string)
      requires 0 < n <= |st| && forall i :: 0 <= i < |st| ==> st[i] < |blocks|
      requires x == x0 + MissingTexts(blocks, st[n..], trace)
      ensures x + WarningText(Missing(blocks[st[n - 1]].name), trace, blocks[st[n - 1]].trace)
        == x0 + MissingTexts(blocks, st[n - 1..], trace)
    {
      assert st[n - 1..][1..] == st[n..];
      AppendAssoc(x0, MissingTexts(blocks, st[n..], trace), WarningText(Missing(blocks[st[n - 1]].name), trace, blocks[st[n - 1]].trace));
    }

    // ----- ending a session -----

    /** The state of dropping the open blocks `st0` that got down to `st`:
        one missing-endblock warning was raised for each dropped block,
        innermost first, and its text echoed or deferred. */
    ghost predicate Dropped(blocks0: seq<Block>, st0: seq<nat>, buf0: string, after0: string, w0: seq<Warning>, trace: Trace,
                            st: seq<nat>, buf: string, after: string, ws: seq<Warning>)
    {
      (forall i :: 0 <= i < |st0| ==> st0[i] < |blocks0|) &&
      |st| <= |st0| && st == st0[..|st|] &&
      (if Immediate(blocks0, trace)
       then buf == buf0 + MissingTexts(blocks0, st0[|st|..], trace) && after == after0
       else after == after0 + MissingTexts(blocks0, st0[|st|..], trace) && buf == buf0) &&
      ws == w0 + MissingFor(blocks0, st0[|st|..])
    }

    /** Warning about the innermost open block takes a drop one step
        further. */
    lemma DropStep(blocks0: seq<Block>, st0: seq<nat>, buf0: string, after0: string, w0: seq<Warning>, trace: Trace,
                   st: seq<nat>, buf: string, after: string, ws: seq<Warning>, buf2: string, after2: string, ws2: seq<Warning>)
      requires Dropped(blocks0, st0, buf0, after0, w0, trace, st, buf, after, ws) && st != []
      requires var b := st[|st| - 1];
        var text := WarningText(Missing(blocks0[b].name), trace, blocks0[b].trace);
        && ws2 == ws + [Missing(blocks0[b].name)]
        && (Immediate(blocks0, trace) ==> buf2 == buf + text && after2 == after)
        && (!Immediate(blocks0, trace) ==> after2 == after + text && buf2 == buf)
      ensures Dropped(blocks0, st0, buf0, after0, w0, trace, st[..|st| - 1], buf2, after2, ws2)
    {
      var n := |st|;
      assert st[..n - 1] == st0[..n - 1] && st0[n - 1] == st[n - 1];
      if Immediate(blocks0, trace) {
        MissingTextsStep(blocks0, st0, n, trace, buf0, buf);
      } else {
        MissingTextsStep(blocks0, st0, n, trace, after0, after);
      }
      MissingForStep(blocks0, st0, n);
    }

    /** The page a flush delivers for a session in the given state: the
        page of the capture once the missing-endblock warnings for the open
        blocks `st` were raised at `trace`. */
    ghost function FlushPage(blocks: seq<Block>, anchors: seq<Anchor>, st: seq<nat>, buffer: string,
                             end: Option<nat>, after: string, trace: Trace): (r: string)
      requires Ranked(blocks, anchors) && |blocks| > 0 && forall i :: 0 <= i < |st| ==> st[i] < |blocks|
      ensures !Immediate(blocks, trace) ==>
        r == Page(blocks, anchors, buffer, end, after) + MissingTexts(blocks, st, trace)
    {
      var texts := MissingTexts(blocks, st, trace);
      var unset := blocks[0].end == None;
      var bs := if unset then blocks[0 := blocks[0].(end := Some(|buffer|))] else blocks;
      var e := if unset then None else end;
      assert Ranked(bs, anchors) by {
        assert forall c :: 0 <= c < |bs| ==> bs[c].children == blocks[c].children;
      }
      AppendAssoc(Concat(TrimLast(Parts(bs, anchors, 0, buffer))) + (if e.Some? then SubstrFrom(buffer, e.value) else ""), after, texts);
      if Immediate(blocks, trace) then Page(blocks, anchors, buffer + texts, end, after)
      else Page(blocks, anchors, buffer, end, after + texts)
    }

    /** The page of the capture once the open blocks were dropped is the
        page the flush promised. */
    lemma FlushPageAfterDrop(blocks: seq<Block>, anchors: seq<Anchor>, st: seq<nat>, buf0: string,
                             end: Option<nat>, after0: string, trace: Trace, buf: string, after: string)
      requires Ranked(blocks, anchors) && |blocks| > 0 && forall i :: 0 <= i < |st| ==> st[i] < |blocks|
      requires Immediate(blocks, trace) ==> buf == buf0 + MissingTexts(blocks, st, trace) && after == after0
      requires !Immediate(blocks, trace) ==> after == after0 + MissingTexts(blocks, st, trace) && buf == buf0
      ensures FlushPage(blocks, anchors, st, buf0, end, after0, trace) == Page(blocks, anchors, buf, end, after)
    {
    }

    /** Force-closes every open block at offset `at`, innermost first. */
    method CloseAll(at: nat, trace: Trace)
      requires Valid() && blocks != []
      modifies this
      ensures Valid() && blocks != [] && stack == [] && out == old(out)
      ensures var f := old(ForceClose(Arenas(blocks, anchors, hash), stack, Offsets(blocks, stack, at, false, trace)));
        && Arenas(blocks, anchors, hash) == f.arenas && end == (if f.last.Some? then f.last else old(end))
        && LoggedCloses(old(blocks), old(stack), f.kinds, trace)
    {
      ghost var blocks0, st0, end0 := blocks, stack, end;
      ghost var w0, buf0, after0, out0 := warnings, buf, after, out;
      ghost var f0 := ForceClose(Arenas(blocks, anchors, hash), stack, Offsets(blocks, stack, at, false, trace));
      ghost var ws0, text0 := ClosesWarnings(blocks0, st0, f0.kinds), ClosesText(blocks0, st0, f0.kinds, trace);
      while stack != []
        invariant Valid() && blocks != [] && out == out0
        invariant Closing(blocks0, trace, false, f0, w0, ws0, buf0, after0, text0, end0,
                          Arenas(blocks, anchors, hash), stack, at, warnings, buf, after, end)
        decreases |stack|
      {
        ghost var cur, st, ws, buf1, after1, end1 := Arenas(blocks, anchors, hash), stack, warnings, buf, after, end;
        var k := CloseTop(at, trace);
        ClosingStep(blocks0, trace, false, f0, w0, ws0, buf0, after0, text0, end0, cur, st, at, ws, buf1, after1, end1,
                    k, Arenas(blocks, anchors, hash), stack, at, warnings, buf, after, end);
      }
      ClosingDone(blocks0, trace, false, f0, w0, ws0, buf0, after0, text0, end0, Arenas(blocks, anchors, hash), at, warnings, buf, after, end);
    }

    /** The page from a block tree whose base has ended: the base's parts
        with the last one right-trimmed, the output after the last
        registered block when one was registered, then the deferred
        warnings. */
    method Assemble(buffer: string) returns (page: string)
      requires Ranked(blocks, anchors) && blocks != [] && blocks[0].end.Some?
      ensures page == Page(blocks, anchors, buffer, end, after)
    {
      var parts := Compile(blocks, anchors, 0, buffer);
      parts := TrimLast(parts);
      if end.Some? {
        ConcatSnoc(parts, SubstrFrom(buffer, end.value));
        parts := parts + [SubstrFrom(buffer, end.value)];
      }
      ConcatSnoc(parts, after);
      parts := parts + [after];
      page := Concat(parts);
    }

    /** Turns the capture `buffer` into the page when the capture ends:
        force-closes the open blocks at its end, ends the base there when it
        has not ended, and assembles the page from the block tree. Without a
        session the page is empty. PHP's output layer calls it through a
        closure whose frame has no file, so its trace is never in the base
        file; the empty trace stands for it, and the text of the warnings
        its forced closes raise is deferred to the end of the page. */
    method BufferCallback(buffer: string) returns (page: string)
      requires Valid()
      modifies this
      ensures old(blocks) == [] ==> page == "" && unchanged(this)
      ensures old(blocks) != [] ==> Valid() && blocks != [] && stack == [] && out == old(out) && buf == old(buf)
      ensures old(blocks) != [] ==>
        var f := old(ForceClose(Arenas(blocks, anchors, hash), stack, Offsets(blocks, stack, |buffer|, false, [])));
        var bs, e := f.arenas.blocks, if f.last.Some? then f.last else old(end);
        && anchors == f.arenas.anchors && hash == f.arenas.hash
        && blocks == (if bs[0].end == None then bs[0 := bs[0].(end := Some(|buffer|))] else bs)
        && end == (if bs[0].end == None then None else e)
        && warnings == old(warnings) + old(ClosesWarnings(blocks, stack, f.kinds))
        && after == old(after) + old(ClosesText(blocks, stack, f.kinds, []))
        && page == Page(bs, f.arenas.anchors, buffer, e, after)
    {
      if blocks == [] {
        page := "";
      } else {
        ghost var blocks0 := blocks;
        page := CloseCapture(buffer, []);
        assert !InBase(blocks0, []);
      }
    }
    /** The capture of a running session ends: every open block is closed
        and the page is assembled from the blocks and the captured text. */
    method CloseCapture(buffer: string, trace: Trace) returns (page: string)
      requires Valid() && blocks != []
      modifies this
      ensures Valid() && blocks != [] && stack == [] && out == old(out)
      ensures var f := old(ForceClose(Arenas(blocks, anchors, hash), stack, Offsets(blocks, stack, |buffer|, false, trace)));
        var bs, e := f.arenas.blocks, if f.last.Some? then f.last else old(end);
        && anchors == f.arenas.anchors && hash == f.arenas.hash
        && blocks == (if bs[0].end == None then bs[0 := bs[0].(end := Some(|buffer|))] else bs)
        && end == (if bs[0].end == None then None else e)
        && LoggedCloses(old(blocks), old(stack), f.kinds, trace)
        && page == Page(bs, f.arenas.anchors, buffer, e, after)
    {
      CloseAll(|buffer|, trace);
      ghost var bs, e := blocks, end;
      if blocks[0].end == None {
        PageEnded(blocks, anchors, buffer, end, after);
      }
      EndBaseAtCapture(|buffer|);
      assert Page(blocks, anchors, buffer, end, after) == Page(bs, anchors, buffer, e, after);
      page := Assemble(buffer);
    }
    /** The base block still open when the capture ends is closed at the end
        of the captured text, and with it the last block before it. */
    method EndBaseAtCapture(at: nat)
      requires Valid() && blocks != [] && stack == []
      modifies this
      ensures Valid() && blocks != []
      ensures anchors == old(anchors) && hash == old(hash) && stack == old(stack)
      ensures buf == old(buf) && after == old(after) && out == old(out) && warnings == old(warnings)
      ensures blocks == if old(blocks[0].end) == None then old(blocks[0 := blocks[0].(end := Some(at))]) else old(blocks)
      ensures end == if old(blocks[0].end) == None then None else old(end)
    {
      if blocks[0].end == None {
        var ended := blocks[0 := blocks[0].(end := Some(at))];
        SessionSameShape(blocks, ended, anchors, hash, stack);
        blocks := ended;
        end := None;
      }
    }

    /** Raises a missing-endblock warning at `trace` for each open block,
        innermost first, dropping the blocks unregistered. */
    method DropOpen(trace: Trace)
      requires Valid() && blocks != []
      modifies this
      ensures Valid() && stack == []
      ensures blocks == old(blocks) && anchors == old(anchors) && hash == old(hash) && end == old(end) && out == old(out)
      ensures Immediate(blocks, trace) ==> buf == old(buf) + old(MissingTexts(blocks, stack, trace)) && after == old(after)
      ensures !Immediate(blocks, trace) ==> after == old(after) + old(MissingTexts(blocks, stack, trace)) && buf == old(buf)
      ensures warnings == old(warnings) + old(MissingFor(blocks, stack))
    {
      ghost var blocks0, anchors0, hash0, end0, out0 := blocks, anchors, hash, end, out;
      ghost var st0, buf0, after0, w0 := stack, buf, after, warnings;
      assert st0[|st0|..] == [];
      while stack != []
        invariant Valid() && blocks == blocks0 && anchors == anchors0 && hash == hash0 && end == end0 && out == out0
        invariant Dropped(blocks0, st0, buf0, after0, w0, trace, stack, buf, after, warnings)
        decreases |stack|
      {
        ghost var st, bf, af, ws := stack, buf, after, warnings;
        var b := stack[|stack| - 1];
        var rest := stack[..|stack| - 1];
        assert rest + [b] == stack;
        SessionPop(blocks, anchors, hash, rest, b);
        stack := rest;
        Warn(Missing(blocks[b].name), trace, blocks[b].trace);
        DropStep(blocks0, st0, buf0, after0, w0, trace, st, bf, af, ws, buf, after, warnings);
      }
      assert st0[0..] == st0;
    }

    /** Ends the session: raises a missing-endblock warning for each open
        block, then ends the capture, whose page goes out. */
    method Flushblocks(trace: Trace)
      requires Valid()
      modifies this
      ensures Valid() && blocks == [] && stack == []
      ensures old(blocks) == [] ==> unchanged(this)
      ensures old(blocks) != [] ==>
        && out == old(out) + old(FlushPage(blocks, anchors, stack, buf, end, after, trace))
        && warnings == old(warnings) + old(MissingFor(blocks, stack))
    {
      if blocks == [] {
        return;
      }
      ghost var blocks0, anchors0, st0, buf0, end0, after0, w0, out0 := blocks, anchors, stack, buf, end, after, warnings, out;
      DropOpen(trace);
      ghost var buf1, after1 := buf, after;
      assert blocks == blocks0 && anchors == anchors0 && end == end0 && stack == [] && out == out0;
      assert warnings == w0 + MissingFor(blocks0, st0);
      FlushPageAfterDrop(blocks0, anchors0, st0, buf0, end0, after0, trace, buf1, after1);
      EndCapture();
    }

    /** Ends the capture of a session with no open block: the callback turns
        it into the page, which goes out, and the session is over. */
    method EndCapture()
      requires Valid() && blocks != [] && stack == []
      modifies this
      ensures Valid() && blocks == [] && stack == [] && warnings == old(warnings)
      ensures out == old(out) + old(Page(blocks, anchors, buf, end, after))
    {
      var page := BufferCallback(buf);
      out := out + page;
      blocks, stack, buf := [], [], "";
    }

    // ----- sessions and markers -----

    /** Begins a session at the marker `trace` unless the running one
        continues there; a marker outside the templates of the running
        session flushes it first. */
    method Init(trace: Trace)
      requires Valid()
      modifies this
      ensures Valid() && blocks != []
      ensures Continues(old(blocks), trace) ==> unchanged(this)
      ensures !Continues(old(blocks), trace) ==>
        && blocks == [Block("base", trace, 0, None, [])] && anchors == [] && stack == [] && hash == map[]
        && end == None && after == "" && buf == ""
        && out == old(out) + (if old(blocks) != [] then old(FlushPage(blocks, anchors, stack, buf, end, after, trace)) else "")
        && warnings == old(warnings) + (if old(blocks) != [] then old(MissingFor(blocks, stack)) else [])
    {
      if blocks == [] {
        Begin(trace);
      } else if !InBaseOrChild(trace, blocks[0].trace) {
        Flushblocks(trace);
        Begin(trace);
      }
    }

    /** A session whose base template was entered at `trace`, with nothing
        captured yet. */
    method Begin(trace: Trace)
      modifies this`blocks, this`anchors, this`stack, this`hash, this`end, this`after, this`buf
      ensures Valid()
      ensures blocks == [Block("base", trace, 0, None, [])] && anchors == [] && stack == [] && hash == map[]
      ensures end == None && after == "" && buf == ""
    {
      blocks := [Block("base", trace, 0, None, [])];
      anchors, stack, hash, end, after, buf := [], [], map[], None, "", "";
    }

    /** The `blockbase()` marker: begins a session at `trace`, as every
        marker does. */
    method Blockbase(trace: Trace)
      requires Valid()
      modifies this
      ensures Valid() && blocks != []
      ensures Continues(old(blocks), trace) ==>
        SessionUnchanged() && buf == old(buf) && after == old(after) && out == old(out) && warnings == old(warnings)
      ensures !Continues(old(blocks), trace) ==>
        && blocks == [Block("base", trace, 0, None, [])] && anchors == [] && stack == [] && hash == map[]
        && end == None && after == "" && buf == ""
        && out == old(out) + (if old(blocks) != [] then old(FlushPage(blocks, anchors, stack, buf, end, after, trace)) else "")
        && warnings == old(warnings) + (if old(blocks) != [] then old(MissingFor(blocks, stack)) else [])
    {
      Init(trace);
    }

    /** The `startblock($name)` marker at `trace`: opens a new block there,
        innermost, after force-closing the open blocks of other files. */
    method Startblock(name: string, trace: Trace)
      requires Valid()
      modifies this
      ensures Valid()
      ensures Continues(old(blocks), trace) ==>
        && out == old(out)
        && OpenedBlock(old(Arenas(blocks, anchors, hash)), old(stack), old(buf), old(after), old(warnings), old(end), name, trace,
                       Arenas(blocks, anchors, hash), stack, end, buf, after, warnings)
      ensures !Continues(old(blocks), trace) ==>
        && blocks == EndBaseAt([Block("base", trace, 0, None, [])], trace, 0) + [Block(name, trace, 0, None, [])]
        && stack == [1] && anchors == [] && hash == map[] && end == None && buf == "" && after == ""
        && out == old(out) + (if old(blocks) != [] then old(FlushPage(blocks, anchors, stack, buf, end, after, trace)) else "")
        && warnings == old(warnings) + (if old(blocks) != [] then old(MissingFor(blocks, stack)) else [])
    {
      ghost var blocks0, anchors0, hash0, stack0, buf0, after0, w0, end0 := blocks, anchors, hash, stack, buf, after, warnings, end;
      Init(trace);
      Open(name, trace);
    }

    /** What a startblock of `name` at `trace` does to a session whose open
        blocks are `st0`: the open blocks from another file are
        force-closed, the base ends when the marker left its file, and a new
        block starting where the capture now stands is opened on top. */
    ghost predicate OpenedBlock(a0: Arenas, st0: seq<nat>, buf0: string, after0: string, w0: seq<Warning>, end0: Option<nat>,
                                name: string, trace: Trace,
                                a: Arenas, st: seq<nat>, end: Option<nat>, buf: string, after: string, w: seq<Warning>)
    {
      && a0.blocks != [] && Session(a0.blocks, a0.anchors, a0.hash, st0)
      && var f := ForeignCloses(a0, st0, |buf0|, trace);
      && a.blocks == EndBaseAt(f.arenas.blocks, trace, |buf|) + [Block(name, trace, |buf|, None, [])]
      && a.anchors == f.arenas.anchors && a.hash == f.arenas.hash
      && st == (if Foreign(a0.blocks, st0, trace) then [] else st0) + [|a.blocks| - 1]
      && end == (if f.last.Some? then f.last else end0)
      && w == w0 + ClosesWarnings(a0.blocks, st0, f.kinds)
      && buf == buf0 + Echo(a0.blocks, trace, ClosesText(a0.blocks, st0, f.kinds, trace))
      && after == after0 + Defer(a0.blocks, trace, ClosesText(a0.blocks, st0, f.kinds, trace))
    }

    /** Opens a block at `trace` in the running session, innermost. */
    method Open(name: string, trace: Trace)
      requires Valid() && blocks != []
      modifies this
      ensures Valid() && out == old(out)
      ensures OpenedBlock(old(Arenas(blocks, anchors, hash)), old(stack), old(buf), old(after), old(warnings), old(end), name, trace,
                          Arenas(blocks, anchors, hash), stack, end, buf, after, warnings)
    {
      var nb := NewBlock(name, trace);
      ghost var blocks1, stack1 := blocks, stack;
      if stack != [] {
        SameFileSymmetric(blocks[stack[|stack| - 1]].trace, trace);
      }
      Push(nb);
      assert stack == stack1 + [|blocks| - 1];
    }

    /** Opens `nb` as the innermost block. */
    method Push(nb: Block)
      requires Valid() && blocks != [] && nb.children == []
      requires stack != [] ==> IsSameFile(nb.trace, blocks[stack[|stack| - 1]].trace)
      modifies this
      ensures Valid() && blocks == old(blocks) + [nb] && stack == old(stack) + [|blocks| - 1]
      ensures anchors == old(anchors) && hash == old(hash) && end == old(end)
      ensures buf == old(buf) && after == old(after) && out == old(out) && warnings == old(warnings)
      ensures Extends(old(blocks), blocks) && |blocks| == |old(blocks)| + 1 && blocks[|blocks| - 1] == nb
    {
      PushKeepsSession(blocks, anchors, hash, stack, nb);
      stack := stack + [|blocks|];
      blocks := blocks + [nb];
    }

    /** The `endblock($name)` marker at `trace`: closes the innermost open
        block and registers it, warning when a name is given and differs
        from the block's; with no open block it warns of an orphan. */
    method Endblock(name: Option<string>, trace: Trace)
      requires Valid()
      modifies this
      ensures Valid() && blocks != []
      ensures Continues(old(blocks), trace) && old(stack) != [] ==>
        && out == old(out)
        && EndedBlock(old(Arenas(blocks, anchors, hash)), old(stack), old(buf), old(after), old(warnings), name, trace,
                      Arenas(blocks, anchors, hash), stack, end, buf, after, warnings)
      ensures Continues(old(blocks), trace) && old(stack) == [] ==>
        && SessionUnchanged() && out == old(out)
        && Logged(blocks, trace, [Orphan(OrphanName(name))], WarningText(Orphan(OrphanName(name)), trace, []))
      ensures !Continues(old(blocks), trace) ==>
        && blocks == [Block("base", trace, 0, None, [])] && anchors == [] && hash == map[] && stack == [] && end == None
        && buf == Echo(blocks, trace, WarningText(Orphan(OrphanName(name)), trace, []))
        && after == Defer(blocks, trace, WarningText(Orphan(OrphanName(name)), trace, []))
        && out == old(out) + (if old(blocks) != [] then old(FlushPage(blocks, anchors, stack, buf, end, after, trace)) else "")
        && warnings == old(warnings) + (if old(blocks) != [] then old(MissingFor(blocks, stack)) else [])
                       + [Orphan(OrphanName(name))]
    {
      ghost var blocks0, anchors0, hash0, stack0, buf0, after0, w0 := blocks, anchors, hash, stack, buf, after, warnings;
      Init(trace);
      if stack != [] {
        assert Continues(blocks0, trace) && blocks == blocks0 && anchors == anchors0 && hash == hash0;
        assert stack == stack0 && buf == buf0 && after == after0 && warnings == w0;
        Close(name, trace);
      } else {
        Unopened(name, trace);
      }
    }

    /** An endblock with no open block: warns of an orphan, quoting the
        given name or nothing. */
    method Unopened(name: Option<string>, trace: Trace)
      requires blocks != []
      modifies this
      ensures SessionUnchanged() && out == old(out)
      ensures Logged(blocks, trace, [Orphan(OrphanName(name))], WarningText(Orphan(OrphanName(name)), trace, []))
    {
      Warn(Orphan(OrphanName(name)), trace, []);
    }

    /** The name an orphan warning quotes: the given one, or nothing. */
    function OrphanName(name: Option<string>): string
    {
      if Truthy(name) then name.value else ""
    }

    /** What an endblock with `name` at `trace` does to a session whose
        open blocks are `st0`: the innermost open block `b` is popped and
        registered as ending where the capture stands once the mismatch
        warning, if any, went out, and the mismatch and duplicate warnings
        are logged and routed. */
    ghost predicate EndedBlock(a0: Arenas, st0: seq<nat>, buf0: string, after0: string, w0: seq<Warning>,
                               name: Option<string>, trace: Trace,
                               a: Arenas, st: seq<nat>, end: Option<nat>, buf: string, after: string, w: seq<Warning>)
    {
      && a0.blocks != [] && st0 != [] && Session(a0.blocks, a0.anchors, a0.hash, st0)
      && var b := st0[|st0| - 1];
      && st0 == st + [b] && 0 < b < |a0.blocks|
      && var at := |buf0| + |Echo(a0.blocks, trace, MismatchText(a0.blocks, b, name, trace))|;
      && var k := Kind(a0.blocks, a0.anchors, a0.hash, b, st != []);
      && end == Some(at) && a == Register(a0.blocks, a0.anchors, a0.hash, st, b, at)
      && w == w0 + (MismatchWarnings(a0.blocks, b, name) + InsertWarnings(a0.blocks[b].name, k))
      && buf == buf0 + Echo(a0.blocks, trace, MismatchText(a0.blocks, b, name, trace) + InsertText(a0.blocks, b, k, trace))
      && after == after0 + Defer(a0.blocks, trace, MismatchText(a0.blocks, b, name, trace) + InsertText(a0.blocks, b, k, trace))
    }

    /** The endblock's effect, put together from its parts. */
    lemma EndedBlockIntro(a0: Arenas, st0: seq<nat>, buf0: string, after0: string, w0: seq<Warning>,
                          name: Option<string>, trace: Trace,
                          a: Arenas, st: seq<nat>, end: Option<nat>, buf: string, after: string, w: seq<Warning>,
                          b: nat, at: nat, k: Registration, mw: seq<Warning>, mt: string, iw: seq<Warning>, it: string)
      requires a0.blocks != [] && Session(a0.blocks, a0.anchors, a0.hash, st + [b]) && st0 == st + [b] && 0 < b < |a0.blocks|
      requires mw == MismatchWarnings(a0.blocks, b, name) && mt == MismatchText(a0.blocks, b, name, trace)
      requires at == |buf0 + Echo(a0.blocks, trace, mt)|
      requires k == Kind(a0.blocks, a0.anchors, a0.hash, b, st != [])
      requires iw == InsertWarnings(a0.blocks[b].name, k) && it == InsertText(a0.blocks, b, k, trace)
      requires end == Some(at) && a == Register(a0.blocks, a0.anchors, a0.hash, st, b, at)
      requires w == w0 + (mw + iw)
      requires buf == buf0 + Echo(a0.blocks, trace, mt + it) && after == after0 + Defer(a0.blocks, trace, mt + it)
      ensures EndedBlock(a0, st0, buf0, after0, w0, name, trace, a, st, end, buf, after, w)
    {
      assert st0[|st0| - 1] == b;
    }

    /** The warning ending block `b` with `name` raises: none, or a
        mismatch when a name is given and it is another one. */
    function MismatchWarnings(blocks: seq<Block>, b: nat, name: Option<string>): seq<Warning>
      requires b < |blocks|
    {
      if Truthy(name) && name.value != blocks[b].name then [Mismatch(blocks[b].name, name.value)] else []
    }

    /** The text of that warning. */
    function MismatchText(blocks: seq<Block>, b: nat, name: Option<string>, trace: Trace): string
      requires b < |blocks|
    {
      if Truthy(name) && name.value != blocks[b].name then WarningText(Mismatch(blocks[b].name, name.value), trace, []) else ""
    }

    /** Warns, when a name is given and it is not block `b`'s, that the
        endblock does not match the block it closes. */
    method CheckName(b: nat, name: Option<string>, trace: Trace)
      requires 0 < b < |blocks|
      modifies this
      ensures SessionUnchanged() && out == old(out)
      ensures Logged(blocks, trace, MismatchWarnings(blocks, b, name), MismatchText(blocks, b, name, trace))
    {
      if Truthy(name) && name.value != blocks[b].name {
        Warn(Mismatch(blocks[b].name, name.value), trace, []);
      }
    }

    /** Closes the innermost open block `b` at `trace`: pops it, warns when
        the given name is another block's, and registers it at the offset
        `at` the capture has then reached. */
    method Close(name: Option<string>, trace: Trace)
      requires Valid() && blocks != [] && stack != []
      modifies this
      ensures Valid() && blocks != [] && out == old(out)
      ensures EndedBlock(old(Arenas(blocks, anchors, hash)), old(stack), old(buf), old(after), old(warnings), name, trace,
                         Arenas(blocks, anchors, hash), stack, end, buf, after, warnings)
    {
      ghost var blocks0, anchors0, hash0, buf0, after0, out0, w0 := blocks, anchors, hash, buf, after, out, warnings;
      var b := stack[|stack| - 1];
      var rest := stack[..|stack| - 1];
      assert rest + [b] == stack;
      stack := rest;
      CheckName(b, name, trace);
      ghost var w1, buf1, after1 := warnings, buf, after;
      assert blocks == blocks0 && stack == rest && out == out0 && Session(blocks, anchors, hash, rest + [b]);
      var at := |buf|;
      var k := InsertBlock(b, at, trace);
      ghost var mw, mt := MismatchWarnings(blocks0, b, name), MismatchText(blocks0, b, name, trace);
      ghost var iw, it := InsertWarnings(blocks0[b].name, k), InsertText(blocks0, b, k, trace);
      LogChain(blocks0, blocks0, trace, w0, buf0, after0, w1, buf1, after1, warnings, buf, after, mw, mt, iw, it);
      EndedBlockIntro(Arenas(blocks0, anchors0, hash0), rest + [b], buf0, after0, w0, name, trace,
                      Arenas(blocks, anchors, hash), stack, end, buf, after, warnings, b, at, k, mw, mt, iw, it);
    }
  }
}

=== FILE: Registering.dfy ===
/** What closing a block does to the arenas: a block closed inside another
    block, or at top level in the base file, gets a new slot; a block closed
    at top level in another file fills the slot already registered under
    its name, unless that slot's block is from its own file. */
module Registering {
  import opened Traces
  import opened Blocks
  import opened Sessions

  /** What registering a closed block does with it. */
  datatype Registration =
    | Attach        // nested, or top level in the base file: a new slot in its parent
    | Unregistered  // top level elsewhere, name never registered: dropped
    | Duplicated    // top level elsewhere, registered from the same file: warned, kept out
    | Overridden    // top level elsewhere, registered from another file: fills that slot

  /** The arenas and the name registry of a session. */
  datatype Arenas = Arenas(blocks: seq<Block>, anchors: seq<Anchor>, hash: map<string, nat>)

  /** How registering `b` treats it; `nested` says blocks remain open. A
      duplicate or an override meets a slot already in the anchor arena. */
  function Kind(blocks: seq<Block>, anchors: seq<Anchor>, hash: map<string, nat>, b: nat, nested: bool): (r: Registration)
    requires Ranked(blocks, anchors) && Registry(anchors, hash) && b < |blocks|
    ensures r in {Duplicated, Overridden} ==> blocks[b].name in hash && hash[blocks[b].name] < |anchors|
  {
    if nested || IsSameFile(blocks[b].trace, blocks[0].trace) then Attach
    else if blocks[b].name !in hash then Unregistered
    else if IsSameFile(blocks[anchors[hash[blocks[b].name]].block].trace, blocks[b].trace) then Duplicated
    else Overridden
  }

  /** The block a block closed with the open blocks `st` is attached to:
      the innermost of them, or the base. */
  function Parent(st: seq<nat>): nat
  {
    if st != [] then st[|st| - 1] else 0
  }

  /** A new slot for `b` over its own range, last among the slots of `p`
      and registered under `b`'s name. */
  function AttachSlot(blocks: seq<Block>, anchors: seq<Anchor>, hash: map<string, nat>, st: seq<nat>,
                      p: nat, b: nat, at: nat): (r: Arenas)
    requires Session(blocks, anchors, hash, st) && p < b < |blocks|
    requires st != [] ==> IsSameFile(blocks[b].trace, blocks[st[0]].trace)
    ensures Session(r.blocks, r.anchors, r.hash, st)
    ensures Extends(blocks, r.blocks) && |r.blocks| == |blocks|
    ensures forall c :: 0 <= c < |blocks| && c != p ==> r.blocks[c] == blocks[c]
    ensures r.blocks[p] == blocks[p].(children := blocks[p].children + [|anchors|])
    ensures r.anchors == anchors + [Anchor(blocks[b].start, at, b)]
    ensures r.hash == hash[blocks[b].name := |anchors|]
    ensures r.anchors[r.hash[blocks[b].name]].block == b
  {
    var a := Anchor(blocks[b].start, at, b);
    AttachKeepsSession(blocks, anchors, hash, st, p, a, blocks[b].name);
    Arenas(blocks[p := blocks[p].(children := blocks[p].children + [|anchors|])], anchors + [a], hash[blocks[b].name := |anchors|])
  }

  /** The slot registered under `b`'s name, now filled by `b`. */
  function OverrideSlot(blocks: seq<Block>, anchors: seq<Anchor>, hash: map<string, nat>, b: nat): (r: Arenas)
    requires Session(blocks, anchors, hash, []) && 0 < b < |blocks| && blocks[b].name in hash
    requires FreshFor(blocks, anchors, b)
    requires !IsSameFile(blocks[anchors[hash[blocks[b].name]].block].trace, blocks[b].trace)
    ensures Session(r.blocks, r.anchors, r.hash, [])
    ensures r.blocks == blocks && r.hash == hash
    ensures r.anchors == anchors[hash[blocks[b].name] := anchors[hash[blocks[b].name]].(block := b)]
    ensures r.anchors[r.hash[blocks[b].name]].block == b
  {
    var x := hash[blocks[b].name];
    OverrideKeepsSession(blocks, anchors, hash, b, x);
    Arenas(blocks, anchors[x := anchors[x].(block := b)], hash)
  }

  /** Registers `b`, the block just popped off the open blocks `st`, as
      closed at offset `at`. Only `b`'s end and the slots change, and the
      session invariant is kept; `RegisterSlots` states what happens to the
      slots. */
  function Register(blocks: seq<Block>, anchors: seq<Anchor>, hash: map<string, nat>, st: seq<nat>, b: nat, at: nat): (r: Arenas)
    requires Session(blocks, anchors, hash, st + [b]) && 0 < b < |blocks|
    ensures Session(r.blocks, r.anchors, r.hash, st)
    ensures Extends(blocks, r.blocks) && |r.blocks| == |blocks|
    ensures r.blocks[b].end == Some(at)
    ensures forall c :: 0 <= c < |blocks| && c != b ==> r.blocks[c].end == blocks[c].end
  {
    SessionPop(blocks, anchors, hash, st, b);
    var closed := blocks[b := blocks[b].(end := Some(at))];
    SessionSameShape(blocks, closed, anchors, hash, st);
    assert Extends(blocks, closed);
    match Kind(blocks, anchors, hash, b, st != [])
    case Attach => AttachSlot(closed, anchors, hash, st, Parent(st), b, at)
    case Overridden => OverrideSlot(closed, anchors, hash, b)
    case _ =>
      Arenas(closed, anchors, hash)
  }

  /** The slots registering `b` leaves: an attached block gets a new slot
      over its own range, last among the slots of its parent and registered
      under its name; an override points the registered slot at `b`; a
      duplicate or unregistered block is left out of the tree. */
  lemma RegisterSlots(blocks: seq<Block>, anchors: seq<Anchor>, hash: map<string, nat>, st: seq<nat>, b: nat, at: nat)
    requires Session(blocks, anchors, hash, st + [b]) && 0 < b < |blocks|
    ensures Ranked(blocks, anchors) && Registry(anchors, hash)
    ensures var r := Register(blocks, anchors, hash, st, b, at);
      && (Kind(blocks, anchors, hash, b, st != []) == Attach ==>
           && r.anchors == anchors + [Anchor(blocks[b].start, at, b)]
           && r.hash == hash[blocks[b].name := |anchors|]
           && r.blocks[Parent(st)].children == blocks[Parent(st)].children + [|anchors|]
           && forall c :: 0 <= c < |blocks| && c != Parent(st) ==> r.blocks[c].children == blocks[c].children)
      && (Kind(blocks, anchors, hash, b, st != []) == Overridden ==>
           && blocks[b].name in hash
           && r.anchors == anchors[hash[blocks[b].name] := anchors[hash[blocks[b].name]].(block := b)]
           && r.hash == hash
           && forall c :: 0 <= c < |blocks| ==> r.blocks[c].children == blocks[c].children)
      && (Kind(blocks, anchors, hash, b, st != []) in {Duplicated, Unregistered} ==>
           && r.anchors == anchors && r.hash == hash
           && forall c :: 0 <= c < |blocks| ==> r.blocks[c].children == blocks[c].children)
      && (Kind(blocks, anchors, hash, b, st != []) in {Attach, Overridden} ==>
           blocks[b].name in r.hash && r.anchors[r.hash[blocks[b].name]].block == b)
  {
    SessionPop(blocks, anchors, hash, st, b);
  }
}

=== FILE: Sessions.dfy ===
/** The invariant a running session keeps over the block arena, the anchor
    arena, the name registry and the stack of open blocks, and the steps
    that preserve it. */
module Sessions {
  import opened Traces
  import opened Warnings
  import opened Blocks

  /** The open blocks are blocks of the arena other than the base, opened
      in stack order, and all from the file of the outermost one. */
  ghost predicate Nest(blocks: seq<Block>, st: seq<nat>)
  {
    (forall i :: 0 <= i < |st| ==> 0 < st[i] < |blocks|) &&
    Ascending(st) &&
    (forall i :: 0 < i < |st| ==> IsSameFile(blocks[st[i]].trace, blocks[st[0]].trace))
  }

  /** Each open block was created after the ones it is opened in. The
      order is stated pair by pair through `Below`, so that a proof draws it
      only for the pairs it names. */
  ghost predicate Ascending(st: seq<nat>)
  {
    forall i, j {:trigger Below(st, i, j)} :: 0 <= i < j < |st| ==> Below(st, i, j)
  }

  ghost predicate Below(st: seq<nat>, i: int, j: int)
  {
    0 <= i < |st| && 0 <= j < |st| && st[i] < st[j]
  }

  /** Every registered name names an anchor of the arena. */
  ghost predicate Registry(anchors: seq<Anchor>, hash: map<string, nat>)
  {
    forall n :: n in hash ==> hash[n] < |anchors|
  }

  /** Every slot of a block created since `bottom` holds a block from the
      file of `bottom`: a top-level close of `bottom` that overrides a slot
      never targets one of these, so it never puts `bottom` below itself. */
  ghost predicate FreshFor(blocks: seq<Block>, anchors: seq<Anchor>, bottom: nat)
    requires Ranked(blocks, anchors) && bottom < |blocks|
  {
    forall c, i :: bottom <= c < |blocks| && 0 <= i < |blocks[c].children| ==>
      IsSameFile(blocks[anchors[blocks[c].children[i]].block].trace, blocks[bottom].trace)
  }

  /** The invariant of a running session whose open blocks are `st`. */
  ghost predicate Session(blocks: seq<Block>, anchors: seq<Anchor>, hash: map<string, nat>, st: seq<nat>)
  {
    |blocks| > 0 && Ranked(blocks, anchors) && Registry(anchors, hash) && Nest(blocks, st) &&
    (|st| > 0 ==> FreshFor(blocks, anchors, st[0]))
  }

  /** A non-empty stack is its rest with its top pushed back on. */
  lemma SplitLast(st: seq<nat>)
    requires st != []
    ensures st[..|st| - 1] + [st[|st| - 1]] == st
  {
  }

  lemma NestPrefix(blocks: seq<Block>, st: seq<nat>, k: nat)
    requires Nest(blocks, st) && k <= |st|
    ensures Nest(blocks, st[..k])
  {
    assert forall i :: 0 <= i < k ==> st[..k][i] == st[i];
    forall i, j | 0 <= i < j < k
      ensures Below(st[..k], i, j)
    {
      assert Below(st, i, j);
    }
  }

  /** Popping the innermost open block keeps the invariant for the rest; the
      popped block is younger than every block it can be attached to and,
      when others stay open, from their file. */
  lemma SessionPop(blocks: seq<Block>, anchors: seq<Anchor>, hash: map<string, nat>, st: seq<nat>, b: nat)
    requires Session(blocks, anchors, hash, st + [b])
    ensures Session(blocks, anchors, hash, st)
    ensures 0 < b < |blocks|
    ensures st != [] ==> st[|st| - 1] < b && IsSameFile(blocks[b].trace, blocks[st[0]].trace)
    ensures st == [] ==> FreshFor(blocks, anchors, b)
  {
    var full := st + [b];
    assert full[|st|] == b && full[..|st|] == st;
    NestPrefix(blocks, full, |st|);
    if st != [] {
      assert full[0] == st[0] && full[|st| - 1] == st[|st| - 1];
      assert Below(full, |st| - 1, |st|);
    }
  }

  /** The invariant looks only at traces and slots, so changing where
      blocks end keeps it. */
  lemma SessionSameShape(blocks: seq<Block>, next: seq<Block>, anchors: seq<Anchor>, hash: map<string, nat>, st: seq<nat>)
    requires Session(blocks, anchors, hash, st)
    requires |next| == |blocks|
    requires forall c :: 0 <= c < |blocks| ==> next[c].trace == blocks[c].trace && next[c].children == blocks[c].children
    ensures Session(next, anchors, hash, st)
  {
  }

  /** Attaching a new slot for `anc.block` at the end of the children of an
      older block `p`, registered under `name`, keeps the invariant, provided
      the block is from the file of the outermost open block. */
  lemma AttachKeepsSession(blocks: seq<Block>, anchors: seq<Anchor>, hash: map<string, nat>, st: seq<nat>,
                           p: nat, anc: Anchor, name: string)
    requires Session(blocks, anchors, hash, st)
    requires p < anc.block < |blocks|
    requires st != [] ==> IsSameFile(blocks[anc.block].trace, blocks[st[0]].trace)
    ensures Session(blocks[p := blocks[p].(children := blocks[p].children + [|anchors|])],
                    anchors + [anc], hash[name := |anchors|], st)
  {
    var x := |anchors|;
    var nb := blocks[p := blocks[p].(children := blocks[p].children + [x])];
    var na := anchors + [anc];
    forall c, i | 0 <= c < |nb| && 0 <= i < |nb[c].children|
      ensures nb[c].children[i] < |na| && c < na[nb[c].children[i]].block
    {
      if c != p || i < |blocks[p].children| {
        assert nb[c].children[i] == blocks[c].children[i];
      }
    }
    if st != [] {
      forall c, i | st[0] <= c < |nb| && 0 <= i < |nb[c].children|
        ensures IsSameFile(nb[na[nb[c].children[i]].block].trace, nb[st[0]].trace)
      {
        if c != p || i < |blocks[p].children| {
          assert nb[c].children[i] == blocks[c].children[i];
        }
      }
    }
  }

  /** With no block open, filling slot `x` with block `b` keeps the
      invariant when `b` was the outermost open block and the slot's block
      is from another file: every block owning the slot is older than `b`. */
  lemma OverrideKeepsSession(blocks: seq<Block>, anchors: seq<Anchor>, hash: map<string, nat>, b: nat, x: nat)
    requires Session(blocks, anchors, hash, []) && 0 < b < |blocks| && x < |anchors|
    requires FreshFor(blocks, anchors, b)
    requires !IsSameFile(blocks[anchors[x].block].trace, blocks[b].trace)
    ensures Session(blocks, anchors[x := anchors[x].(block := b)], hash, [])
  {
    var na := anchors[x := anchors[x].(block := b)];
    forall c, i | 0 <= c < |blocks| && 0 <= i < |blocks[c].children|
      ensures blocks[c].children[i] < |na| && c < na[blocks[c].children[i]].block
    {
      if blocks[c].children[i] == x && b <= c {
        assert false;
      }
    }
  }

  /** Creating a block with no slots and opening it on top keeps the
      invariant when it is from the file of the innermost open block. */
  lemma PushKeepsSession(blocks: seq<Block>, anchors: seq<Anchor>, hash: map<string, nat>, st: seq<nat>, blk: Block)
    requires Session(blocks, anchors, hash, st) && blk.children == []
    requires st != [] ==> IsSameFile(blk.trace, blocks[st[|st| - 1]].trace)
    ensures Session(blocks + [blk], anchors, hash, st + [|blocks|])
  {
    var nb := blocks + [blk];
    var ns := st + [|blocks|];
    assert forall c :: 0 <= c < |blocks| ==> nb[c] == blocks[c];
    assert forall i :: 0 <= i < |st| ==> ns[i] == st[i];
    forall i, j | 0 <= i < j < |ns|
      ensures Below(ns, i, j)
    {
      if j < |st| {
        assert Below(st, i, j);
      }
    }
    if st != [] {
      var top := st[|st| - 1];
      if |st| > 1 {
        assert IsSameFile(blocks[top].trace, blocks[st[0]].trace);
      }
      assert IsSameFile(nb[ns[|st|]].trace, nb[ns[0]].trace);
    }
  }

  /** The open blocks are all from one file, so when one of them is from
      the file of `trace` the innermost is too: forced closes take the whole
      stack or nothing. */
  lemma NestTopSameFile(blocks: seq<Block>, st: seq<nat>, k: nat, trace: Trace)
    requires Nest(blocks, st) && k < |st|
    requires IsSameFile(blocks[st[k]].trace, trace)
    ensures IsSameFile(blocks[st[|st| - 1]].trace, trace)
  {
    var top := blocks[st[|st| - 1]].trace;
    var bottom := blocks[st[0]].trace;
    if k > 0 {
      SameFileSymmetric(blocks[st[k]].trace, bottom);
      SameFileTransitive(bottom, blocks[st[k]].trace, trace);
    }
    if |st| > 1 {
      SameFileTransitive(top, bottom, trace);
    }
  }

  /** The warnings closing the blocks `st` raises, innermost first. */
  ghost function MissingFor(blocks: seq<Block>, st: seq<nat>): seq<Warning>
    requires forall i :: 0 <= i < |st| ==> st[i] < |blocks|
  {
    if st == [] then [] else MissingFor(blocks, st[1..]) + [Missing(blocks[st[0]].name)]
  }

  lemma MissingForStep(blocks: seq<Block>, st: seq<nat>, n: nat)
    requires 0 < n <= |st| && forall i :: 0 <= i < |st| ==> st[i] < |blocks|
    ensures MissingFor(blocks, st[n - 1..]) == MissingFor(blocks, st[n..]) + [Missing(blocks[st[n - 1]].name)]
  {
    assert st[n - 1..][1..] == st[n..];
  }

  /** The block opened last is warned about first. */
  lemma {:induction false} MissingForSnoc(blocks: seq<Block>, st: seq<nat>, b: nat)
    requires b < |blocks| && forall i :: 0 <= i < |st| ==> st[i] < |blocks|
    ensures MissingFor(blocks, st + [b]) == [Missing(blocks[b].name)] + MissingFor(blocks, st)
    decreases |st|
  {
    if st == [] {
      assert [b][1..] == [];
    } else {
      assert (st + [b])[1..] == st[1..] + [b];
      MissingForSnoc(blocks, st[1..], b);
    }
  }

  lemma {:induction false} MissingForExtends(blocks: seq<Block>, next: seq<Block>, st: seq<nat>)
    requires Extends(blocks, next) && forall i :: 0 <= i < |st| ==> st[i] < |blocks|
    ensures MissingFor(blocks, st) == MissingFor(next, st)
  {
    if st != [] {
      MissingForExtends(blocks, next, st[1..]);
    }
  }

  /** The missing-endblock warnings among `ws`, in order. */
  function Missings(ws: seq<Warning>): seq<Warning>
  {
    if ws == [] then []
    else Missings(ws[..|ws| - 1]) + (if ws[|ws| - 1].Missing? then [ws[|ws| - 1]] else [])
  }

  lemma {:induction false} MissingsAppend(a: seq<Warning>, b: seq<Warning>)
    ensures Missings(a + b) == Missings(a) + Missings(b)
    decreases |b|
  {
    if b == [] {
      assert a + b == a;
    } else {
      assert (a + b)[..|a + b| - 1] == a + b[..|b| - 1];
      MissingsAppend(a, b[..|b| - 1]);
    }
  }
}

=== FILE: Text.dfy ===
/** The string operations the engine relies on, with the behaviour of the
    library functions it calls: `substr`, `rtrim`, `implode('', …)` and the
    `%d` conversion of `sprintf`. */
module Text {

  function Min(a: int, b: int): int
  {
    if a <= b then a else b
  }

  /** `substr($s, $offset, $length)` for a non-negative offset. */
  function Substr(s: string, offset: nat, length: int): string
  {
    if offset >= |s| then ""
    else if length >= 0 then s[offset..Min(offset + length, |s|)]
    else if |s| + length <= offset then ""
    else s[offset..|s| + length]
  }

  /** What `substr` takes: an offset at or past the end gives ""; a
      non-negative length takes that many characters, or the rest of the
      text when fewer are left; a negative length takes the text up to that
      many characters before the end, or "" when the offset is past that. */
  lemma SubstrSpec(s: string, offset: nat, length: int)
    ensures var r := Substr(s, offset, length);
      && (offset >= |s| ==> r == "")
      && (offset < |s| && 0 <= length && offset + length <= |s| ==> r == s[offset..offset + length])
      && (offset < |s| && 0 <= length && offset + length > |s| ==> r == s[offset..])
      && (offset < |s| && length < 0 && offset < |s| + length ==> r == s[offset..|s| + length])
      && (length < 0 && |s| + length <= offset ==> r == "")
  {
  }

  /** `substr($s, $offset)`: everything from the offset on. */
  function SubstrFrom(s: string, offset: nat): string
  {
    if offset >= |s| then "" else s[offset..]
  }

  lemma SubstrFromSpec(s: string, offset: nat)
    ensures offset <= |s| ==> s[..offset] + SubstrFrom(s, offset) == s
    ensures offset >= |s| ==> SubstrFrom(s, offset) == ""
  {
  }

  /** The characters `rtrim` strips by default. */
  predicate IsBlank(c: char)
  {
    c == ' ' || c == '\t' || c == '\n' || c == '\r' || c == '\0' || c == '\U{0B}'
  }

  /** `rtrim($s)`: strips blanks off the end. */
  function RTrim(s: string): string
  {
    if s != [] && IsBlank(s[|s| - 1]) then RTrim(s[..|s| - 1]) else s
  }

  /** `rtrim` gives the longest prefix of `s` that does not end in a
      blank: everything it strips is blank. */
  lemma {:induction false} RTrimSpec(s: string)
    ensures var r := RTrim(s);
      && |r| <= |s| && r == s[..|r|]
      && (forall i :: |r| <= i < |s| ==> IsBlank(s[i]))
      && (r == [] || !IsBlank(r[|r| - 1]))
  {
    if s != [] && IsBlank(s[|s| - 1]) {
      RTrimSpec(s[..|s| - 1]);
    }
  }

  /** `implode('', $parts)`. */
  function Concat(parts: seq<string>): string
  {
    if parts == [] then "" else Concat(parts[..|parts| - 1]) + parts[|parts| - 1]
  }

  lemma {:induction false} ConcatAppend(a: seq<string>, b: seq<string>)
    ensures Concat(a + b) == Concat(a) + Concat(b)
    decreases |b|
  {
    if b == [] {
      assert a + b == a;
    } else {
      var init, last := b[..|b| - 1], b[|b| - 1];
      assert b == init + [last];
      assert a + b == (a + init) + [last];
      ConcatSnoc(a + init, last);
      ConcatSnoc(init, last);
      ConcatAppend(a, init);
    }
  }

  lemma AppendAssoc(a: string, b: string, c: string)
    ensures a + b + c == a + (b + c)
  {
  }

  lemma ConcatSnoc(parts: seq<string>, s: string)
    ensures Concat(parts + [s]) == Concat(parts) + s
  {
    assert (parts + [s])[..|parts|] == parts;
  }

  /** The parts with only the last one right-trimmed; an empty list gains
      one empty part, as an assignment to index -1 of an empty PHP array
      does. */
  function TrimLast(parts: seq<string>): seq<string>
  {
    if parts == [] then [""] else parts[..|parts| - 1] + [RTrim(parts[|parts| - 1])]
  }

  /** Trimming the last part only removes blanks from the end of the joined
      text: the result is a prefix and everything after it is blank. Only
      the last part is trimmed: blanks ending an earlier part stay. */
  lemma TrimLastOnlyTrims(parts: seq<string>)
    ensures var r, s := Concat(TrimLast(parts)), Concat(parts);
      |r| <= |s| && r == s[..|r|] && forall i :: |r| <= i < |s| ==> IsBlank(s[i])
    ensures parts != [] ==>
      Concat(TrimLast(parts)) == Concat(parts[..|parts| - 1]) + RTrim(parts[|parts| - 1])
    ensures parts == [] ==> Concat(TrimLast(parts)) == ""
  {
    if parts == [] {
      assert [""][..0] == [];
    } else {
      var init, last := parts[..|parts| - 1], parts[|parts| - 1];
      assert parts == init + [last];
      ConcatAppend(init, [last]);
      ConcatAppend(init, [RTrim(last)]);
      RTrimSpec(last);
      assert Concat([last]) == last by { assert [last][..0] == []; }
      assert Concat([RTrim(last)]) == RTrim(last) by { assert [RTrim(last)][..0] == []; }
    }
  }

  function DigitChar(d: nat): char
    requires d < 10
  {
    (('0' as int) + d) as char
  }

  /** The decimal notation `%d` gives a non-negative number. */
  function Digits(n: nat): string
  {
    if n < 10 then [DigitChar(n)] else Digits(n / 10) + [DigitChar(n % 10)]
  }

  /** The notation is made of digits only, without a leading zero. */
  lemma {:induction false} DigitsShape(n: nat)
    ensures var r := Digits(n);
      && |r| > 0
      && (forall i :: 0 <= i < |r| ==> '0' <= r[i] <= '9')
      && (r[0] == '0' ==> n == 0)
  {
    if n >= 10 {
      DigitsShape(n / 10);
    }
  }

  /** Reads decimal digits back. */
  function Value(s: string): int
  {
    if s == [] then 0 else 10 * Value(s[..|s| - 1]) + (s[|s| - 1] as int - '0' as int)
  }

  /** `%d` is faithful: the digits read back as the number. */
  lemma {:induction false} DigitsRoundTrip(n: nat)
    ensures Value(Digits(n)) == n
  {
    if n >= 10 {
      DigitsRoundTrip(n / 10);
      var r := Digits(n);
      assert r[..|r| - 1] == Digits(n / 10);
    }
  }
}

=== FILE: Traces.dfy ===
/** Invocation contexts ("traces"): the chain of template call sites that is
    active when a block marker fires, innermost call site first, as a
    backtrace lists them. The engine uses them to tell the base template,
    the templates it includes and an unrelated render apart. */
module Traces {

  /** One call site: the file that made the call and the line it is on. */
  datatype Frame = Frame(file: string, line: nat)

  /** Innermost frame first; the last frame is the outermost template. */
  type Trace = seq<Frame>

  /** Both traces are non-empty, their innermost frames are in the same file
      (at any line) and every outer frame is identical. */
  predicate IsSameFile(t1: Trace, t2: Trace)
    ensures IsSameFile(t1, t2) ==> |t1| == |t2|
  {
    |t1| > 0 && |t2| > 0 && t1[0].file == t2[0].file && t1[1..] == t2[1..]
  }

  /** Reference definition of a sub-trace: `t1` is exactly the outermost
      |t1| frames of `t2`. */
  predicate IsSuffix(t1: Trace, t2: Trace)
  {
    |t1| <= |t2| && t1 == t2[|t2| - |t1|..]
  }

  /** Compares the two traces frame by frame from the outermost end. */
  method IsSubtrace(t1: Trace, t2: Trace) returns (r: bool)
    ensures r <==> IsSuffix(t1, t2)
  {
    var len1, len2 := |t1|, |t2|;
    if len1 > len2 {
      return false;
    }
    var i := 0;
    while i < len1
      invariant 0 <= i <= len1
      invariant forall k :: len1 - i <= k < len1 ==> t1[k] == t2[len2 - len1 + k]
    {
      if t1[len1 - 1 - i] != t2[len2 - 1 - i] {
        assert t2[len2 - len1..][len1 - 1 - i] == t2[len2 - 1 - i];
        return false;
      }
      i := i + 1;
    }
    assert t1 == t2[len2 - len1..];
    return true;
  }

  /** The session whose base template was entered with `baseTrace` is still
      the one running: the frames outside the innermost one are the base
      trace's outermost frames, and the innermost frame is in the file the
      base trace has at that depth. A depth one beyond the base trace has no
      such frame and fails. */
  predicate InBaseOrChild(t: Trace, baseTrace: Trace)
    ensures IsSameFile(t, baseTrace) ==> InBaseOrChild(t, baseTrace)
  {
    assert IsSameFile(t, baseTrace) ==> t[1..] == baseTrace[|baseTrace| - (|t| - 1)..];
    |t| > 0 && |baseTrace| > 0 && IsSuffix(t[1..], baseTrace) &&
    |baseTrace| - |t| >= 0 && t[0].file == baseTrace[|baseTrace| - |t|].file
  }

  /** Same-file is symmetric. */
  lemma SameFileSymmetric(t1: Trace, t2: Trace)
    ensures IsSameFile(t1, t2) <==> IsSameFile(t2, t1)
  {
  }

  /** Same-file is transitive, so the blocks of one open nest agree on it. */
  lemma SameFileTransitive(t1: Trace, t2: Trace, t3: Trace)
    requires IsSameFile(t1, t2) && IsSameFile(t2, t3)
    ensures IsSameFile(t1, t3)
  {
  }

  /** A trace keeps the session exactly when it is the base trace cut to
      its own depth, except for the line of its innermost frame. */
  lemma InBaseOrChildMeans(t: Trace, baseTrace: Trace)
    ensures InBaseOrChild(t, baseTrace) <==>
      (0 < |t| <= |baseTrace| &&
       t == [Frame(baseTrace[|baseTrace| - |t|].file, t[0].line)] + baseTrace[|baseTrace| - |t| + 1..])
  {
    if InBaseOrChild(t, baseTrace) {
      var k := |baseTrace| - |t|;
      assert t[1..] == baseTrace[k + 1..];
      assert t == [t[0]] + t[1..];
    }
    if 0 < |t| <= |baseTrace| &&
       t == [Frame(baseTrace[|baseTrace| - |t|].file, t[0].line)] + baseTrace[|baseTrace| - |t| + 1..] {
      assert t[1..] == baseTrace[|baseTrace| - |t| + 1..];
    }
  }

  /** A trace that keeps the session starts from the same outermost template
      file as the base: a render started from another top-level file never
      does. */
  lemma SessionSharesOutermostFile(t: Trace, baseTrace: Trace)
    requires InBaseOrChild(t, baseTrace)
    ensures t[|t| - 1].file == baseTrace[|baseTrace| - 1].file
  {
    var k := |baseTrace| - |t|;
    if |t| > 1 {
      assert t[1..][|t| - 2] == baseTrace[k + 1..][|t| - 2];
    }
  }
}

=== FILE: Warnings.dfy ===
/** The engine's diagnostics. Every anomaly is a warning, never an error:
    the kind of anomaly, the text `sprintf` builds for it, and the location
    it points at. */
module Warnings {
  import opened Traces
  import opened Text

  datatype Warning =
    | Mismatch(started: string, ended: string)  // endblock named another block than the one it closes
    | Orphan(name: string)                      // endblock with no open block ("" when unnamed)
    | Missing(name: string)                     // block closed without its endblock
    | Duplicate(name: string)                   // second top-level block of one name in one file

  function Message(w: Warning): string
  {
    match w
    case Mismatch(s, e) => "startblock('" + s + "') does not match endblock('" + e + "')"
    case Orphan(n) => "orphan endblock('" + n + "')"
    case Missing(n) => "missing endblock() for startblock ('" + n + "')"
    case Duplicate(n) => "cannot define another block called '" + n + "'"
  }

  /** The location a warning is reported at: the first frame of `at`; an
      empty trace prints an empty file name and line 0. */
  function FileOf(at: Trace): string
  {
    if |at| > 0 then at[0].file else ""
  }

  function LineOf(at: Trace): nat
  {
    if |at| > 0 then at[0].line else 0
  }

  /** The warning line in the command-line format or in the browser format. */
  function Format(cli: bool, message: string, at: Trace): string
  {
    if cli then
      "\nWarning: " + message + " in " + FileOf(at) + " on line " + Digits(LineOf(at)) + "\n"
    else
      "<br />\n<b>Warning</b>:  " + message + " in <b>" + FileOf(at) + "</b> on line <b>"
      + Digits(LineOf(at)) + "</b><br />\n"
  }
}
